=== FILE: README.md ===
# toorPIA option resolver and command builder, in Dafny

toorPIA turns raw data into a two-dimensional map. The user describes one run in a
dictionary of options (`rawdata`, `rawdata_type`, `working_dir`, `type_weight`, the
FFT settings, the output paths, the viewer switches). Two copies of the code turn
that dictionary into external commands:

- `toorpia/utils.py` runs locally. It checks the raw files and infers the data type
  (`table` or `sound`). It fills in defaults, creates directories, and builds the
  option strings for `mkcsvseg` or `mkfftseg`. It then runs the segment extractor,
  the optional band filter and the `toorpia` projector, and starts the map inspector
  and the monitoring scope.
- `remote/remote_utils.py` holds a toolkit that validates its connection settings
  once. Its own data-type check has different inference rules. It builds the three
  shell command lines each entry point sends over ssh: build segments, run the
  projector, read the coordinates back.

The model keeps the option dictionary as a Dafny `map<string, Value>`. A Python
exception becomes an `Err` carrying the modelled error, and the filesystem is three
sets: the paths that exist, those that are readable and those that are writable.
Modules follow the program's structure:

- `Text`: Python's whitespace `str.split()` and `str()` of an integer.
- `Paths`: `posixpath.dirname`.
- `Config`: option values, errors, `Result`, the filesystem and one invocation of a
  command.
- `Resolver`: the local existence, type, requirement and output-path checks.
- `Builder`: the local option strings.
- `Viewers`: the map-inspector and monitoring-scope switches.
- `Pipeline`: the local entry points `create_type_weight`, `create_basemap`,
  `addplot`, `multi_filter` and `multi_filter_add`.
- `Remote`: the remote toolkit.
- `Divergence`: the inputs on which the two copies decide the data type differently.

Command lines are stated through `Text.Words`, the Python whitespace split
(`str.split()`) of the command string. Each builder's contract says which tokens its
string splits into. This is not a shell's parse: `str.isspace()` counts more
characters as separators than a shell does, and shell operators such as `;`, `>` and
`2>` appear as ordinary tokens. For the local runs, the redirection targets are kept
as separate fields of the invocation.

The model follows what the code does in these places:

- A csv file with no type hint is never refused. Locally it is table data unless
  `data_index`, `sampling_rate` or `window_length` is set. Remotely it is sound data
  unless `type_weight_csv` is set.
- `window_size` and `reduce_factor` get no defaults. The value 1 that the comments in
  `show_params` give for both (toorpia/utils.py:33-34) is never applied, and the
  table option string carries `-ws` and `-rf` only when they are set.
- In `addplot`, the working directory is always set by the time the basemap check
  runs, so its "working_dir is not specified" error cannot be reached from there.

## Model

| member | source | states |
|---|---|---|
| Text.Words | toorpia/utils.py:66 | every element of the split is a non-empty, whitespace-free token |
| Text.WordsOfJoin | toorpia/utils.py:255 | splitting a space-joined command line gives the split of each part, concatenated |
| Text.WordsOfUnwords | toorpia/utils.py:66 | splitting `' '.join(tokens)` returns exactly the tokens |
| Text.WordsKeepAllNonSpace | toorpia/utils.py:66 | the split loses only whitespace: gluing the tokens back together gives every other character, in order |
| Text.NatToDecimal | toorpia/utils.py:134 | `str(n)` for a natural number is a non-empty digit string with no leading zero |
| Text.DecimalRoundTrip | toorpia/utils.py:134 | reading back the digits that `str(n)` prints gives `n` again |
| Text.IntToDecimal | toorpia/utils.py:143-147 | `str(i)` is one token; it is all digits exactly when `i >= 0` and starts with `-` exactly when `i < 0` |
| Paths.Dirname | toorpia/utils.py:174 | the directory part of a path is a prefix of it |
| Paths.DirnameEmptyIffBare | toorpia/utils.py:174-176 | the directory part is empty exactly when the path contains no `/` |
| Paths.DirnameOfJoin | toorpia/utils.py:165 | the directory of `dir + '/' + name`, for a slash-free name, is `dir` |
| Config.Render | toorpia/utils.py:134 | `str(v)` of a string is the string itself; of an int, bool or None it is a single token |
| Config.GetStr | toorpia/utils.py:66 | a string-valued option is read back; a missing key is a KeyError and a non-string value is a type error |
| Config.Default | toorpia/utils.py:91-92 | `if key not in options: options[key] = v` adds only `key`, sets it only when absent, and keeps every other entry |
| Resolver.CheckFiles | toorpia/utils.py:66-70 | succeeds exactly when every listed file is readable; otherwise it reports the first unreadable file, as not found or as not readable |
| Resolver.CheckRawdataExistence | toorpia/utils.py:62-70 | a missing `rawdata` is an error; otherwise success means `rawdata` is a string and every file in its split is readable |
| Resolver.CheckRawdataType | toorpia/utils.py:72-88 | on success, `rawdata_type` is table or sound, and no other key is added or changed |
| Resolver.WavFirstFileIsSound | toorpia/utils.py:76-77 | a wav-family first file makes the data sound, even over an explicitly given type |
| Resolver.CsvTypeIsInferred | toorpia/utils.py:78-83 | a csv first file with no type given is sound exactly when `data_index`, `sampling_rate` or `window_length` is set, and table otherwise |
| Resolver.CsvTypeIsValidated | toorpia/utils.py:84-86 | a csv first file with a type given keeps the options when the type is table or sound, and otherwise fails naming the value |
| Resolver.RawdataTypeErrors | toorpia/utils.py:72-88 | exactly three situations fail: no first file, a first file in neither family, or a csv file with an invalid type |
| Resolver.MixedCaseIsNotRecognised | toorpia/utils.py:76-78 | suffixes are matched in the four listed spellings only: `.Wav` and `.Csv` are in neither family |
| Resolver.CheckRawdataTypeIdempotent | toorpia/utils.py:72-88 | checking the checked options again gives the same result |
| Resolver.WavAndCsvAreExclusive | toorpia/utils.py:76-78 | no name is in both the wav and the csv family |
| Resolver.CheckWorkingDir | toorpia/utils.py:90-96 | succeeds exactly when the working directory (default `analysis`) is a string that exists or is non-empty, and is writable. An empty one that does not exist reaches `os.makedirs('')` and is not found, and any other failure is a permission error. On success it is recorded and no other option changes; a missing one is made together with its missing parents, and an existing one leaves the filesystem as it is |
| Resolver.CheckRequiredForTable | toorpia/utils.py:98-104 | after the working-directory check, a missing `type_weight` asks for `create_type_weight` first, and a template file that does not exist is not found |
| Resolver.SoundDefaults | toorpia/utils.py:110-127 | for the whole `rawdata` string: csv fills `data_index` 1 and `sampling_rate` 48000, wav drops `data_index` and fills `sampling_rate`, and `window_length` 65536 is always filled; given values are never overwritten |
| Resolver.CheckRequiredForSound | toorpia/utils.py:106-129 | table data is refused; otherwise the sound defaults are filled and the working directory is checked, and only the four settled keys may be added |
| Resolver.CheckRequiredForSoundIdempotent | toorpia/utils.py:106-129 | resolving the sound requirements twice is the same as once |
| Resolver.DefaultOutput | toorpia/utils.py:164-165 | an output path keeps its given value, or else becomes `working_dir + name`; when it cannot be built the error is the working directory's |
| Resolver.BasemapDefaults | toorpia/utils.py:164-171 | `base_segment`, `base_xy` and `status_mi` each keep a given value or default under the working directory, and nothing else changes |
| Resolver.AddplotDefaults | toorpia/utils.py:200-210 | the four addplot outputs each keep a given value or default under the working directory, and nothing else changes |
| Resolver.DefaultOutputLivesInWorkingDir | toorpia/utils.py:164-165 | a defaulted output file's directory part is the working directory |
| Resolver.MadeDirs | toorpia/utils.py:93-94 | `os.makedirs(d, exist_ok=True)` creates `d` and each missing parent above it, up to the first existing one, the empty parent of a relative path or the root: only prefixes of `d` that did not exist, each created parent lies on the way to a created child, and the parent of every created directory exists afterwards |
| Resolver.MakeDirsAsWritten | toorpia/utils.py:173-176 | `os.makedirs(d)` as called fails exactly for the empty directory `''`; otherwise `d` exists afterwards, the only paths added are missing directories on the way to `d`, each with its parent in place, and the permissions are unchanged |
| Resolver.BareOutputNameFailsAsWritten | toorpia/utils.py:173-176 | an output path with no `/` always reaches `os.makedirs('')`, which fails |
| Resolver.MakeDirs | toorpia/utils.py:173-176 | the corrected step never fails: an empty directory part is the current directory and changes nothing, and any other directory is created with its missing parents, exactly as the original does |
| Resolver.PrepareParentDirs | toorpia/utils.py:173-176 | afterwards each output file's directory exists or is the current one. Nothing disappears, and the only paths added are non-empty directories on the way to some output file's directory, each with its parent in place |
| Resolver.PrepareNewFileDirs | toorpia/utils.py:212-214 | afterwards each output file exists or has its directory ready. Nothing disappears, and the only paths added are non-empty directories on the way to some output file's directory, each with its parent in place |
| Resolver.PrepareParentDirsAsWritten | toorpia/utils.py:173-176 | the loop as written fails, as not found, exactly when some output file is a bare name (and `''` is not an existing path); otherwise its result is the corrected loop's |
| Resolver.PrepareNewFileDirsAsWritten | toorpia/utils.py:212-214 | the loop as written fails, as not found, only on a missing bare file name. It always fails on the first one that is not a prefix of an earlier file's directory part, and so was not made as one of its parents. Otherwise its result is the corrected loop's |
| Resolver.SetOutputFileForBasemap | toorpia/utils.py:163-176 | succeeds exactly when the defaults can be built and every given path is a string; then all three outputs have their directories ready, and the only paths added are directories on the way to them, each with its parent in place |
| Resolver.SetOutputFileForBasemapAsWritten | toorpia/utils.py:163-176 | the step as written adds one failure to the corrected step's: not found, exactly when one of the three outputs is a bare name (and `''` is not an existing path). Otherwise it gives the same result |
| Resolver.CheckBasemapExistence | toorpia/utils.py:178-197 | requires a readable working directory and a readable base segment file and base coordinate file; it changes no file |
| Resolver.MissingBasemapIsNotFound | toorpia/utils.py:193-195 | a missing base segment file is reported before a missing coordinate file, each as not found |
| Resolver.SetOutputFileForAddplot | toorpia/utils.py:199-214 | succeeds exactly when the defaults can be built and every given path is a string; each output then exists or has its directory ready, and the only paths added are directories on the way to them, each with its parent in place |
| Resolver.SetOutputFileForAddplotAsWritten | toorpia/utils.py:199-214 | the step as written adds one failure to the corrected step's: not found, only when an output is a new bare name, and always when `add_segment` is one. Otherwise it gives the same result |
| Builder.WithFlag | toorpia/utils.py:134 | appending `' <flag> <value>'` adds exactly those two words to the command line |
| Builder.OptionalFlag | toorpia/utils.py:133-136 | an option adds its flag and value exactly when it is present, and the string is unchanged otherwise |
| Builder.MakeOptionStrForTable | toorpia/utils.py:131-138 | the string starts with `-o <type_weight>`, followed by `-ws` and then `-rf` for those that are set; no defaults are invented |
| Builder.SoundHead | toorpia/utils.py:142-145 | the string has `-di <data_index>` for csv input, then `-wl <window_length>`; a missing `data_index` for csv is a KeyError |
| Builder.AppendFlags | toorpia/utils.py:146-159 | the optional flags contribute exactly the set options, in list order, each as flag then value |
| Builder.MakeOptionStrForSound | toorpia/utils.py:140-161 | succeeds exactly when the needed keys exist; the words are `-di` (whole-string csv only), `-wl`, then the set optional flags in order |
| Viewers.MapInspector | toorpia/utils.py:269-283 | skipped exactly when `map_inspector == False`; otherwise recorded True and sharable exactly when `map_inspector_sharable == True`, else recorded False; no other key is touched |
| Viewers.MonitoringScope | toorpia/utils.py:363-371 | started exactly when `monitoring_scope == True`, sharable exactly when its switch equals True; when not started, both switches are recorded False |
| Viewers.MapInspectorReadsSwitches | toorpia/utils.py:269-283 | the inspector decision depends on its two switches only |
| Viewers.MonitoringScopeReadsSwitches | toorpia/utils.py:363-371 | the scope decision depends on its two switches only |
| Viewers.MapInspectorIdempotent | toorpia/utils.py:269-283 | the recorded switches reproduce the same decision and options |
| Viewers.MonitoringScopeIdempotent | toorpia/utils.py:363-371 | the recorded switches reproduce the same decision and options |
| Viewers.IntegerSwitches | toorpia/utils.py:269 | under Python's `==`, 0 acts as False and 1 as True, while the string "False" does not |
| Pipeline.PrepareExtractor | toorpia/utils.py:243-250 | table data runs `mkcsvseg` with the table option string after the table checks; sound data runs `mkfftseg` with the sound option string after the sound checks; check errors pass through |
| Pipeline.TableRequirementsEnableFlags | toorpia/utils.py:244-246 | once the table requirements hold, the table option string can always be built |
| Pipeline.SoundRequirementsEnableFlags | toorpia/utils.py:248-250 | once the sound requirements hold, the sound option string can always be built |
| Pipeline.MultiFilter | toorpia/utils.py:382-432 | needs `multi_filter_option`, sound data, a segment file that exists after the sound checks, and a sampling rate. That file existed before, or is the working directory or one of its parents, which the checks made. It runs `filter -f <band> --sr <rate> <segment>` into the masked file, which replaces the segment file, and changes only settled keys |
| Pipeline.SampleRateRequiredOnlyWithoutSuffix | toorpia/utils.py:395-396 | the filter can lack a sampling rate only when the whole `rawdata` string has neither a csv nor a wav suffix |
| Pipeline.FilterCommand | toorpia/utils.py:398-400 | the filter command splits into the program, `-f`, the band, `--sr`, the rate and the segment file |
| Pipeline.TypeWeightPrelude | toorpia/utils.py:216-223 | the existence and working-directory errors pass through; on success the template path is the given one or `<working_dir>/type_weight.csv`, and the old template has been removed with nothing else |
| Pipeline.CreateTypeWeight | toorpia/utils.py:216-237 | the prelude's errors come first, then, with the old template already removed, a type error or the sound refusal; success needs table data and yields one `mkcsvseg -o <type_weight> <rawdata>` run whose output is discarded and whose log sits beside the template, leaving the template in place; the template and its log are the only files written |
| Pipeline.TypeWeightEnablesTable | toorpia/utils.py:216-237 | after `create_type_weight`, the table requirements of the entry points hold |
| Pipeline.NoTypeWeightForSound | toorpia/utils.py:227-228 | a wav first file never gets a template |
| Pipeline.PrepareSegments | toorpia/utils.py:239-250 | existence errors, then type errors, pass through; after them the result is the requirement check and option string of the inferred type, as Pipeline.PrepareExtractor states them. Success carries the switches, raw data and output paths over unchanged |
| Pipeline.SegmentStage | toorpia/utils.py:254-261 | one segment run, and a second filter run exactly when the data is sound with a band filter set; the segment file exists afterwards |
| Pipeline.BasemapPaths | toorpia/utils.py:239-252 | the errors come in source order: existence, type, the requirements of the type, then the basemap output paths. Success holds the prepared extractor and the options with `base_segment` and `base_xy` set, given values kept and the carried keys unchanged |
| Pipeline.BasemapSegments | toorpia/utils.py:239-261 | every error of Pipeline.BasemapPaths surfaces unchanged, and after them only the filter can fail, with its own error. The first run is the segment command of the prepared extractor, `<tool> <option string> <rawdata>`, writing `base_segment` with its `.log` beside it; a second run comes exactly for filtered sound data |
| Pipeline.ProjectorRun | toorpia/utils.py:264 | the projector command splits into `toorpia -m <mode>` and the segment files, writing the coordinates and a `.log` beside them |
| Pipeline.RawCsv | toorpia/utils.py:274-277 | the inspector gets `rawdata` as the raw csv exactly when it is started and `rawdata` is a single file |
| Pipeline.BasemapProjection | toorpia/utils.py:262-283 | appends `toorpia -m base <base_segment>` writing `base_xy`, so both outputs exist; the inspector follows its switches and is handed the raw csv exactly when started on a single file; the scope is never started |
| Pipeline.CreateBasemap | toorpia/utils.py:239-283 | the errors of the checks, the requirements and the output paths pass through in source order, then the filter's. Success has two or three runs, three exactly for filtered sound data: the prepared extractor's segment command first, `toorpia -m base <base_segment>` last. Given paths are used as given, both outputs exist, the inspector follows its switches and the scope is never started |
| Pipeline.AddplotPaths | toorpia/utils.py:322-336 | the errors come in source order: existence, type, the requirements of the type, the basemap check, then the addplot output paths. Success holds the prepared extractor and the options with the carried keys unchanged |
| Pipeline.AddplotSegments | toorpia/utils.py:322-345 | every error of Pipeline.AddplotPaths surfaces unchanged, and after them only the filter can fail, with its own error. The first run is the segment command of the prepared extractor, writing `add_segment` with its `.log` beside it; a second run comes exactly for filtered sound data |
| Pipeline.ViewersKeepOutputs | toorpia/utils.py:353-371 | the viewer switches change no output path, and the inspector does not touch the scope switches |
| Pipeline.AddplotProjection | toorpia/utils.py:347-371 | appends `toorpia -m add <base_segment> <base_xy> <add_segment>` writing `add_xy`; both viewers follow the switches as given |
| Pipeline.Addplot | toorpia/utils.py:322-371 | the errors of the checks, the requirements, the basemap check and the output paths pass through in source order, then the filter's. Success has two or three runs: the prepared extractor's segment command writing `add_segment` first, the add projection over the basemap last. Given paths are used as given and both outputs exist |
| Remote.CheckUidAsWritten | remote/remote_utils.py:17-21 | the constructor's UID check as written: a missing or empty user is refused, and a string passes when `^[0-9]+$` matches, which tolerates one final newline |
| Remote.NewlineUidAcceptedAsWritten | remote/remote_utils.py:17-21 | `"1000\n"` passes the written check although it is not a UID and not a single token of the whitespace split |
| Remote.CheckUid | remote/remote_utils.py:17-21 | the corrected check accepts exactly the non-empty all-digit strings, which are single tokens of the whitespace split; the error cases are as written |
| Remote.UidChecksDiffer | remote/remote_utils.py:17-21 | the written and corrected checks differ exactly on a UID followed by one newline |
| Remote.NewToolkit | remote/remote_utils.py:7-28 | succeeds exactly when both directories are absolute and the user is a UID; errors come in source order (an empty directory is an index error); compose defaults to `docker compose`; the settings are kept |
| Remote.NewToolkitAsWritten | remote/remote_utils.py:7-28 | the constructor as written agrees with the corrected one except on a UID followed by one newline, which it accepts and keeps while the corrected one refuses it |
| Remote.PrefixWords | remote/remote_utils.py:26 | the container prefix splits into `cd <dir>;`, the compose words, then `exec -T -u <uid> -w <working_dir> toorpia` |
| Remote.CheckDataType | remote/remote_utils.py:47-68 | a blank `rawdata` or one matching neither pattern is refused, and so is an unknown type; a given type is kept; otherwise wav is sound and csv is table exactly when `type_weight_csv` is set; only `rawdata_type` changes |
| Remote.ExtractorChoice | remote/remote_utils.py:56-90 | `mkcsvseg` runs exactly when table was declared, or nothing was declared for a non-wav file and `type_weight_csv` is set |
| Remote.CheckDataTypeIdempotent | remote/remote_utils.py:47-68 | checking checked parameters again changes nothing |
| Remote.WavAndCsvExclusive | remote/remote_utils.py:49-50 | no string matches both case-insensitive patterns |
| Remote.FlagIfSet | remote/remote_utils.py:80-83 | an option adds its flag and value exactly when it is neither absent, empty nor None |
| Remote.OptionStr | remote/remote_utils.py:78-90 | the option string is empty exactly when no argument applies; otherwise it splits into `-wl`, `-sr` for sound or `-o` for table, each with its value |
| Remote.SegmentCommand | remote/remote_utils.py:84 | the segment command splits into the prefix, the extractor, its arguments and the raw files, then `> <wd>/…_segments.csv 2> <wd>/…_segments.log` |
| Remote.ProjectorCommand | remote/remote_utils.py:92 | the projector command splits into the prefix, `/usr/local/bin/toorpia -m <mode>` and the input segment files, then the coordinate and log redirections |
| Remote.FetchCommand | remote/remote_utils.py:97 | the read-back command splits into the prefix, `cat` and the coordinate file |
| Remote.Commands | remote/remote_utils.py:70-127 | fails exactly when the type check fails, with its error; otherwise it keeps the checked parameters and builds the segment, projector and read-back commands |
| Remote.CreateBasemap | remote/remote_utils.py:70-98 | three commands: segments into `base_segments.csv`, `toorpia -m base` writing `base-xy.dat`, and `cat base-xy.dat` |
| Remote.Addplot | remote/remote_utils.py:100-127 | three commands: segments into `add_segments.csv`, the add projection, and `cat add-xy.dat` |
| Remote.AddplotProjectorWords | remote/remote_utils.py:121 | the add projection reads `base_segments.csv`, `base-xy.dat` and `add_segments.csv` and writes `add-xy.dat` |
| Divergence.AmbiguousCsvDiverges | remote/remote_utils.py:59-61 | a lone csv file with no type, no sound option and no type-weight file is table data locally and sound data remotely |
| Divergence.DeclaredTableWavDiverges | remote/remote_utils.py:56-66 | a lone wav file declared as table becomes sound locally, but keeps the declared table type remotely |
| Divergence.SeveralFilesDiverge | remote/remote_utils.py:53-54 | a csv file followed by a name ending in neither `v` nor `z` is table data locally and refused remotely |
| Divergence.MixedCaseDiverges | remote/remote_utils.py:49-58 | a name ending in `.Wav` is unrecognised locally and sound remotely |
| Divergence.CsvNameIsCsvFile | remote/remote_utils.py:50 | every single-word name in a local csv spelling also matches the remote csv pattern |
| Divergence.WavNameIsWavFile | remote/remote_utils.py:49 | every single-word name in a local wav spelling also matches the remote wav pattern |

## Left out

- The ssh transport and `exec_remote_cmd` are left out, so the remote entry points yield only the command strings they would send.
- Exit codes, `sys.exit(1)` and the error printouts are left out. Every external command is assumed to succeed and to create its redirection targets.
- Reading the coordinate files into float arrays is left out: floating point and file contents are not modelled.
- `open_basemap` is left out. It only chains the basemap check into the same inspector switch, both of which are modelled.
- `show_params`, the help banner, the progress `print`s and the `display(HTML(...))` link are left out as output only.
- The `map_inspector` and `monitoring_scope` calls themselves are left out. The model keeps the decision to start each viewer, its sharability, and the raw csv it is handed.
- `os.makedirs` failing for lack of permission is left out. Whether a created directory is readable or writable is fixed in advance by the permission sets.
- Paths are compared as strings. `a/b/` and `a/b`, or `a/./b` and `a/b`, are different paths, and making a directory below an existing file is not refused.
- Float option values are left out: `Config.Value` has no float case. So `str()` of a float such as `segment_overlap_ratio = 0.5` or a float `high_pass_filter` is not modelled.
- Viewers.MapInspector: a float switch is not modelled, so `map_inspector = 0.0`, which Python's `==` treats as False, cannot be stated.
- Viewers.MonitoringScope: a float switch is not modelled, so `monitoring_scope = 1.0`, which Python's `==` treats as True, cannot be stated.
- Builder.AppendFlags: a float value of an optional flag is not modelled, so its rendering is not stated.
- A call that raises discards the options and the files it had already changed, because the Python dictionary is mutated in place but the model returns `Err` with no state. So the working directory `__check_working_dir` makes before its PermissionError, and the segment file written before `multi_filter` raises, are not recorded.
- Remote.NewToolkit: it runs the corrected UID check, so it refuses `analysis_user = "1000\n"`, which the source accepts. Remote.NewToolkitAsWritten states the source's behaviour.
- Remote.NewToolkit: the two directories are strings. A non-string `toorpia_service_dir` or `working_dir` raising a type error is not modelled.
- Remote.Addplot: its own contract states the shape of the segment and read-back commands only. The add projector command is stated by Remote.AddplotProjectorWords.
- Resolver.PrepareParentDirs: it runs the corrected `os.makedirs` step, so an output path with no directory part, such as `segments.csv`, succeeds where the source raises FileNotFoundError. Resolver.PrepareParentDirsAsWritten states the source's behaviour.
- Resolver.PrepareNewFileDirs: it runs the corrected step, so a new output path with no directory part succeeds where the source raises FileNotFoundError. Resolver.PrepareNewFileDirsAsWritten states the source's behaviour.
- Resolver.SetOutputFileForBasemap: it uses the corrected directory loop, so `base_segment = "segments.csv"` succeeds where the source raises FileNotFoundError. Resolver.SetOutputFileForBasemapAsWritten states the source's behaviour.
- Resolver.SetOutputFileForAddplot: it uses the corrected directory loop, so a new `add_segment = "segments-add.csv"` succeeds where the source raises FileNotFoundError. Resolver.SetOutputFileForAddplotAsWritten states the source's behaviour.
- Pipeline.BasemapPaths: its output-path step is the corrected one, so a bare output name does not fail as it does in the source.
- Pipeline.BasemapSegments: its output-path step is the corrected one, so a bare output name does not fail as it does in the source.
- Pipeline.CreateBasemap: its output-path step is the corrected one, so a bare output name does not fail as it does in the source.
- Pipeline.AddplotPaths: its output-path step is the corrected one, so a new bare output name does not fail as it does in the source.
- Pipeline.AddplotSegments: its output-path step is the corrected one, so a new bare output name does not fail as it does in the source.
- Pipeline.Addplot: its output-path step is the corrected one, so a new bare output name does not fail as it does in the source.
- Pipeline.CreateTypeWeight: its `Err` result carries no filesystem. Pipeline.TypeWeightPrelude states that the old template has already been removed when a type error or the sound refusal is raised.
- Pipeline.Addplot: the defaults of the viewer status files are stated by Resolver.AddplotDefaults, not repeated in this contract.

## Findings

| source | as written | input that shows it | evidently intended | confidence | as-written member | corrected member |
|---|---|---|---|---|---|---|
| toorpia/utils.py:173-176, 212-214 | the directory of each output file is created with `os.makedirs(os.path.dirname(file), exist_ok=True)` when it does not exist, and `os.path.exists('')` is false | an output path with no directory part, such as `base_segment = "segments.csv"`, leads to `os.makedirs('')`, which raises FileNotFoundError | an empty directory part means the current directory, which needs no creating | not executed | Resolver.MakeDirsAsWritten, Resolver.BareOutputNameFailsAsWritten, Resolver.SetOutputFileForBasemapAsWritten, Resolver.SetOutputFileForAddplotAsWritten | Resolver.MakeDirs |
| remote/remote_utils.py:17-21 | `analysis_user` is validated with `re.match(r'^[0-9]+$', …)` | `"1000\n"` matches, since `$` also matches before a final newline, and the newline then splits the `-u` argument of every container command | only all-digit strings are accepted | not executed | Remote.CheckUidAsWritten, Remote.NewlineUidAcceptedAsWritten, Remote.NewToolkitAsWritten | Remote.CheckUid |

=== FILE: builder.dfy ===
/** The local command builder of toorpia/utils.py: the flag strings handed to the
    segment extractors `mkcsvseg` (table data) and `mkfftseg` (sound data).
    Each flag is appended as `' <flag> ' + str(value)`, so the contracts give
    the Python whitespace split of the string: the flags and values in order. */
module Builder {
  import opened Text
  import opened Config
  import opened Resolver

  /** `acc + ' ' + flag + ' ' + value`: one flag with its value appended. */
  function WithFlag(acc: string, flag: string, value: string): (r: string)
    ensures acc <= r && |r| > |acc|
    ensures IsWord(flag) && IsWord(value) ==> Words(r) == Words(acc) + [flag, value]
  {
    var r := acc + " " + flag + " " + value;
    if IsWord(flag) && IsWord(value) then (AppendPair(acc, flag, value); r) else r
  }

  lemma AppendPair(acc: string, flag: string, value: string)
    requires IsWord(flag) && IsWord(value)
    ensures Words(acc + " " + flag + " " + value) == Words(acc) + [flag, value]
  {
    assert acc + " " + flag + " " + value == acc + " " + (flag + " " + value);
    WordsOfJoin(acc, flag + " " + value);
    WordsOfJoin(flag, value);
    WordsOfWord(flag);
    WordsOfWord(value);
  }

  /** The arguments a present option contributes: its flag, then its value. */
  function FlagArgs(o: Options, key: string, flag: string): seq<string> {
    if key in o then [flag, Render(o[key])] else []
  }

  /** The option is absent, or renders as a single token. */
  predicate RendersAsWord(o: Options, key: string) {
    key !in o || IsWord(Render(o[key]))
  }

  /** `if key in options: option_str += ' <flag> ' + str(options[key])`. */
  function OptionalFlag(acc: string, o: Options, key: string, flag: string): (r: string)
    ensures acc <= r
    ensures r == acc <==> key !in o
    ensures |r| == |acc| <==> key !in o
    ensures IsWord(flag) && RendersAsWord(o, key) ==> Words(r) == Words(acc) + FlagArgs(o, key, flag)
  {
    if key in o then WithFlag(acc, flag, Render(o[key])) else acc
  }

  // ---------------------------------------------------------------------------
  // __make_option_str_for_table

  function MakeOptionStrForTable(o: Options): (r: Result<string>)
    ensures r.Ok? <==> IsStrOption(o, "type_weight")
    ensures r.Err? ==> r.error == (if "type_weight" in o then NotAString("type_weight") else MissingKey("type_weight"))
    // always begins with the type-weight file, and invents no defaults
    ensures r.Ok? ==> "-o " + o["type_weight"].s <= r.value
    ensures r.Ok? ==> (r.value == "-o " + o["type_weight"].s <==> "window_size" !in o && "reduce_factor" !in o)
    ensures (r.Ok? && IsWord(o["type_weight"].s)
             && RendersAsWord(o, "window_size") && RendersAsWord(o, "reduce_factor")) ==>
      Words(r.value) == ["-o", o["type_weight"].s] + FlagArgs(o, "window_size", "-ws") + FlagArgs(o, "reduce_factor", "-rf")
  {
    var tw :- GetStr(o, "type_weight");
    var head := "-o " + tw;
    HeadWords(tw);
    var ws := OptionalFlag(head, o, "window_size", "-ws");
    Ok(OptionalFlag(ws, o, "reduce_factor", "-rf"))
  }

  lemma HeadWords(tw: string)
    ensures IsWord(tw) ==> Words("-o " + tw) == ["-o", tw]
  {
    if IsWord(tw) {
      assert "-o " + tw == "-o" + " " + tw;
      WordsOfJoin("-o", tw);
      WordsOfWord("-o");
      WordsOfWord(tw);
    }
  }

  // ---------------------------------------------------------------------------
  // __make_option_str_for_sound

  /** The optional sound options, each with its flag, in the order they are
      appended. */
  const SoundFlags: seq<(string, string)> :=
    [("sampling_rate", "-sr"), ("high_pass_filter", "-hp"), ("low_pass_filter", "-lp"),
     ("n_moving_average", "-nm"), ("window_function", "-wf"), ("segment_overlap_ratio", "-ol")]

  /** None of the listed options is set. */
  predicate NoneSet(o: Options, flags: seq<(string, string)>)
    decreases |flags|
  {
    |flags| == 0 || (flags[0].0 !in o && NoneSet(o, flags[1..]))
  }

  /** Every listed flag is a token and every listed option that is set renders
      as one. */
  predicate FlagsAreWords(o: Options, flags: seq<(string, string)>)
    decreases |flags|
  {
    |flags| == 0 || (IsWord(flags[0].1) && RendersAsWord(o, flags[0].0) && FlagsAreWords(o, flags[1..]))
  }

  /** The arguments of the listed options that are set, in list order. */
  function ExpectedArgs(o: Options, flags: seq<(string, string)>): seq<string>
    decreases |flags|
  {
    if |flags| == 0 then [] else FlagArgs(o, flags[0].0, flags[0].1) + ExpectedArgs(o, flags[1..])
  }

  /** One `if key in options: option_str += ...` per listed (key, flag), in
      order. */
  function AppendFlags(acc: string, o: Options, flags: seq<(string, string)>): (r: string)
    ensures acc <= r
    ensures |r| == |acc| <==> NoneSet(o, flags)
    ensures FlagsAreWords(o, flags) ==> Words(r) == Words(acc) + ExpectedArgs(o, flags)
    decreases |flags|
  {
    if |flags| == 0 then acc
    else AppendFlags(OptionalFlag(acc, o, flags[0].0, flags[0].1), o, flags[1..])
  }

  /** The sound options that become flag values all render as single tokens. */
  predicate SoundValuesAreWords(o: Options) {
    && RendersAsWord(o, "data_index") && RendersAsWord(o, "window_length")
    && RendersAsWord(o, "sampling_rate") && RendersAsWord(o, "high_pass_filter")
    && RendersAsWord(o, "low_pass_filter") && RendersAsWord(o, "n_moving_average")
    && RendersAsWord(o, "window_function") && RendersAsWord(o, "segment_overlap_ratio")
  }

  /** The option string for `mkfftseg`.  `-di` is keyed on the whole rawdata
      string, not on its first file. */
  function MakeOptionStrForSound(o: Options): (r: Result<string>)
    ensures r.Ok? <==> (IsStrOption(o, "rawdata")
      && (IsCsvName(o["rawdata"].s) ==> "data_index" in o) && "window_length" in o)
    ensures !IsStrOption(o, "rawdata") ==> r == Err(if "rawdata" in o then NotAString("rawdata") else MissingKey("rawdata"))
    ensures (IsStrOption(o, "rawdata") && IsCsvName(o["rawdata"].s) && "data_index" !in o) ==> r == Err(MissingKey("data_index"))
    ensures (r.Ok? && SoundValuesAreWords(o)) ==>
      Words(r.value) ==
        (if WholeIsCsv(o) then ["-di", Render(o["data_index"])] else [])
        + ["-wl", Render(o["window_length"])]
        + ExpectedArgs(o, SoundFlags)
  {
    var raw :- GetStr(o, "rawdata");
    var head :- SoundHead(o, IsCsvName(raw));
    SoundFlagsAreWords(o);
    Ok(AppendFlags(head, o, SoundFlags))
  }

  /** `' -di <data_index>'` for csv input, then `' -wl <window_length>'`. */
  function SoundHead(o: Options, csv: bool): (r: Result<string>)
    ensures r.Ok? <==> (csv ==> "data_index" in o) && "window_length" in o
    ensures csv && "data_index" !in o ==> r == Err(MissingKey("data_index"))
    ensures (r.Ok? && RendersAsWord(o, "data_index") && RendersAsWord(o, "window_length")) ==>
      Words(r.value) == (if csv then ["-di", Render(o["data_index"])] else []) + ["-wl", Render(o["window_length"])]
  {
    var di :- if csv then Lookup(o, "data_index") else Ok(NoneValue);
    var head := if csv then WithFlag("", "-di", Render(di)) else "";
    var wl :- Lookup(o, "window_length");
    Ok(WithFlag(head, "-wl", Render(wl)))
  }

  lemma SoundFlagsAreWords(o: Options)
    ensures SoundValuesAreWords(o) ==> FlagsAreWords(o, SoundFlags)
  {
    var f := SoundFlags;
    assert f[5..][1..] == [];
    assert f[4..][1..] == f[5..];
    assert f[3..][1..] == f[4..];
    assert f[2..][1..] == f[3..];
    assert f[1..][1..] == f[2..];
  }
}

=== FILE: config.dfy ===
/** The option dictionary both copies of the resolver work on, the errors they
    raise, and the abstract filesystem their existence and permission checks
    consult. */
module Config {
  import opened Text

  /** A Python option value: a string, an int, a bool or None. */
  datatype Value = Str(s: string) | Int(i: int) | Bool(b: bool) | NoneValue

  /** Python's `str(v)`; also what `'%s' % v` and an f-string field produce. */
  function Render(v: Value): (r: string)
    ensures v.Str? ==> r == v.s
    ensures !v.Str? ==> IsWord(r)
  {
    match v
    case Str(s) => s
    case Int(i) => IntToDecimal(i)
    case Bool(b) => if b then "True" else "False"
    case NoneValue => "None"
  }

  /** Python's `v == True` / `v == False`: an int 1 / 0 compares equal too. */
  predicate PyEquals(v: Value, b: bool) {
    v == Bool(b) || v == Int(if b then 1 else 0)
  }

  /** The mutable `options`/`params` dictionary, as a value. */
  type Options = map<string, Value>

  /** Everything the modelled code raises. */
  datatype Error =
      // raised implicitly by Python
    | MissingKey(key: string)           // KeyError on options[key]
    | NotAString(key: string)           // TypeError/AttributeError: a str operation on a non-str option
    | IndexOutOfRange(what: string)     // IndexError: first element of an empty list or string
    | NotFound(path: string)            // FileNotFoundError
    | PermissionDenied(path: string)    // PermissionError
      // raised by toorpia/utils.py
    | RawdataNotSpecified
    | InvalidRawdataType(given: Value)
    | UnrecognizedRawdata(name: string)
    | TypeWeightNotCreated              // 'exec create_type_weight function first'
    | NothingToDoForTable               // 'rawdata_type is table. nothing to do'
    | TypeWeightNotNeeded               // 'rawdata_type is sound, so type_weight is not needed'
    | WorkingDirNotSpecified
    | FilterOptionRequired
    | FilterOnTable
    | SegmentRequired(key: string)      // 'base_segment is required' / 'add_segment is required'
    | SampleRateRequired
      // ValueError raised by remote/remote_utils.py
    | ServiceDirNotAbsolute
    | WorkingDirNotAbsolute
    | AnalysisUserMissing
    | AnalysisUserNotUid
    | RawdataMustBeSpecified
    | RawdataNotWavOrCsv
    | TypeNotSoundOrTable

  /** A value or the exception that ends the call; usable with `:-`. */
  datatype Result<+T> = Ok(value: T) | Err(error: Error) {
    predicate IsFailure() {
      Err?
    }

    function PropagateFailure<U>(): Result<U>
      requires Err?
    {
      Err(error)
    }

    function Extract(): T
      requires Ok?
    {
      value
    }
  }

  /** `options[key]` where the caller applies a string operation to it. */
  function GetStr(o: Options, key: string): (r: Result<string>)
    ensures r.Ok? <==> key in o && o[key].Str?
    ensures r.Ok? ==> r.value == o[key].s
    ensures key !in o ==> r == Err(MissingKey(key))
    ensures key in o && !o[key].Str? ==> r == Err(NotAString(key))
  {
    if key !in o then Err(MissingKey(key))
    else if !o[key].Str? then Err(NotAString(key))
    else Ok(o[key].s)
  }

  /** `if key not in options: options[key] = v`. */
  function Default(o: Options, key: string, v: Value): (r: Options)
    ensures r.Keys == o.Keys + {key}
    ensures forall k :: k in o ==> r[k] == o[k]
    ensures key !in o ==> r[key] == v
  {
    if key in o then o else o[key := v]
  }

  /** What the existence and permission checks observe.  A path is readable
      (writable) when it exists and carries that permission; `os.access` on a
      missing path is false. */
  datatype Fs = Fs(present: set<string>, readPerm: set<string>, writePerm: set<string>) {
    /** `os.path.exists('')` is false. */
    predicate Valid() {
      "" !in present
    }

    predicate Readable(p: string) {
      p in present && p in readPerm
    }

    predicate Writable(p: string) {
      p in present && p in writePerm
    }

    /** `p` comes to exist: a directory made by `os.makedirs(p, exist_ok=True)`,
        or a file written by a shell redirection (`> p`). */
    function Add(p: string): (r: Fs)
      ensures r.present == present + {p}
      ensures r.readPerm == readPerm && r.writePerm == writePerm
    {
      Fs(present + {p}, readPerm, writePerm)
    }

    /** Every path of `ps` comes to exist: the directories one `os.makedirs`
        call creates. */
    function AddAll(ps: set<string>): (r: Fs)
      ensures r.present == present + ps
      ensures r.readPerm == readPerm && r.writePerm == writePerm
    {
      Fs(present + ps, readPerm, writePerm)
    }

    /** `os.remove(p)`. */
    function Remove(p: string): (r: Fs)
      ensures r.present == present - {p}
      ensures r.readPerm == readPerm && r.writePerm == writePerm
    {
      Fs(present - {p}, readPerm, writePerm)
    }
  }

  /** The option dictionary together with the filesystem it describes. */
  datatype State = State(opts: Options, fs: Fs)

  /** One external command as the local code runs it: the command line, and the
      files its standard output and standard error are redirected to (`stderr`
      is empty when standard error is not redirected). */
  datatype Invocation = Invocation(command: string, stdout: string, stderr: string)
}

=== FILE: divergence.dfy ===
/** Where the two copies of the resolver disagree.  toorpia/utils.py decides the
    data type from the first file of `rawdata` with case-sensitive suffixes,
    lets a wav file override an explicit type and calls a csv file table unless
    a sound-only option is present; remote/remote_utils.py matches the whole
    `rawdata` string case-insensitively, keeps an explicit type, and calls a csv
    file sound unless a type-weight file is named.  Each lemma below exhibits one
    disagreement for a whole family of inputs. */
module Divergence {
  import opened Text
  import opened Config
  import opened Resolver
  import opened Remote

  /** A single-token name in one of the four local csv spellings also matches
      the remote csv pattern. */
  lemma CsvNameIsCsvFile(s: string)
    requires IsWord(s) && IsCsvName(s)
    ensures IsCsvFile(s)
  {
    WordHasNoNewline(s);
    if EndsWith(s, ".csv") || EndsWith(s, ".CSV") {
      SpelledFolds(s, ".csv", if EndsWith(s, ".csv") then ".csv" else ".CSV");
    } else {
      SpelledFolds(s, ".csv.gz", if EndsWith(s, ".csv.gz") then ".csv.gz" else ".CSV.gz");
    }
  }

  /** The same for the wav spellings. */
  lemma WavNameIsWavFile(s: string)
    requires IsWord(s) && IsWavName(s)
    ensures IsWavFile(s)
  {
    WordHasNoNewline(s);
    if EndsWith(s, ".wav") || EndsWith(s, ".WAV") {
      SpelledFolds(s, ".wav", if EndsWith(s, ".wav") then ".wav" else ".WAV");
    } else {
      SpelledFolds(s, ".wav.gz", if EndsWith(s, ".wav.gz") then ".wav.gz" else ".WAV.gz");
    }
  }

  lemma WordHasNoNewline(s: string)
    requires IsWord(s)
    ensures DropFinalNewline(s) == s && NoNewline(s)
  {
    assert IsSpace('\n');
    assert !IsSpace(s[|s| - 1]);
  }

  /** A spelling that agrees with the pattern letter by letter up to case
      matches it case-insensitively. */
  lemma SpelledFolds(s: string, pat: string, spelled: string)
    requires EndsWith(s, spelled) && |spelled| == |pat|
    requires forall i :: 0 <= i < |pat| ==> FoldMatch(spelled[i], pat[i])
    ensures EndsWithFolded(s, pat)
  {
    forall i | 0 <= i < |pat|
      ensures FoldMatch(s[|s| - |pat| + i], pat[i])
    {
      assert s[|s| - |pat| + i] == s[|s| - |spelled|..][i];
    }
  }

  /** A lone csv file with no type, no sound-only option and no type-weight
      file: table locally, sound remotely. */
  lemma AmbiguousCsvDiverges(o: Options)
    requires "rawdata" in o && o["rawdata"].Str? && IsWord(o["rawdata"].s) && IsCsvName(o["rawdata"].s)
    requires "rawdata_type" !in o && !HasSoundHint(o) && IsBlank(o, "type_weight_csv")
    ensures CheckRawdataType(o).Ok? && CheckRawdataType(o).value["rawdata_type"] == Table
    ensures CheckDataType(o).Ok? && CheckDataType(o).value["rawdata_type"] == Sound
  {
    var raw := o["rawdata"].s;
    WordsOfWord(raw);
    WavAndCsvAreExclusive(raw);
    CsvNameIsCsvFile(raw);
    WavAndCsvExclusive(raw);
  }

  /** A lone wav file declared as table: sound locally (the suffix wins), table
      remotely (the declaration wins). */
  lemma DeclaredTableWavDiverges(o: Options)
    requires "rawdata" in o && o["rawdata"].Str? && IsWord(o["rawdata"].s) && IsWavName(o["rawdata"].s)
    requires "rawdata_type" in o && o["rawdata_type"] == Table
    ensures CheckRawdataType(o) == Ok(o["rawdata_type" := Sound])
    ensures CheckDataType(o) == Ok(o)
  {
    var raw := o["rawdata"].s;
    WordsOfWord(raw);
    WavNameIsWavFile(raw);
  }

  /** Several files: locally only the first is inspected, remotely the whole
      string must end in a data suffix.  A csv file followed by a file whose
      name ends in neither `v` nor `z` (say `b.txt`) is table data locally and
      rejected remotely. */
  lemma SeveralFilesDiverge(o: Options, first: string, second: string)
    requires IsWord(first) && IsCsvName(first) && IsWord(second)
    requires !FoldMatch(second[|second| - 1], 'v') && !FoldMatch(second[|second| - 1], 'z')
    requires "rawdata" in o && o["rawdata"] == Str(first + " " + second)
    requires "rawdata_type" !in o && !HasSoundHint(o)
    ensures CheckRawdataType(o) == Ok(o["rawdata_type" := Table])
    ensures CheckDataType(o) == Err(RawdataNotWavOrCsv)
  {
    var raw := first + " " + second;
    WordsOfJoin(first, second);
    WordsOfWord(first);
    WordsOfWord(second);
    WavAndCsvAreExclusive(first);
    var b := DropFinalNewline(raw);
    assert raw[|raw| - 1] == second[|second| - 1];
    assert !IsSpace(second[|second| - 1]);
    assert IsSpace('\n');
    SuffixLetters(b);
  }

  /** A mixed-case suffix such as `take.Wav`: unrecognised locally, sound
      remotely. */
  lemma MixedCaseDiverges(o: Options)
    requires "rawdata" in o && o["rawdata"].Str? && IsWord(o["rawdata"].s) && EndsWith(o["rawdata"].s, ".Wav")
    requires "rawdata_type" !in o
    ensures CheckRawdataType(o) == Err(UnrecognizedRawdata(o["rawdata"].s))
    ensures CheckDataType(o) == Ok(o["rawdata_type" := Sound])
  {
    var s := o["rawdata"].s;
    WordsOfWord(s);
    WordHasNoNewline(s);
    MixedCaseIsNoLocalName(s);
    MixedCaseFolds(s);
  }

  lemma MixedCaseIsNoLocalName(s: string)
    requires EndsWith(s, ".Wav")
    ensures !IsWavName(s) && !IsCsvName(s)
  {
    var n := |s|;
    assert s[n - 1] == 'v' && s[n - 3] == 'W' by {
      assert s[n - 4..][3] == 'v' && s[n - 4..][1] == 'W';
    }
  }

  lemma MixedCaseFolds(s: string)
    requires EndsWith(s, ".Wav")
    ensures EndsWithFolded(s, ".wav")
  {
    assert FoldMatch('.', '.') && FoldMatch('W', 'w') && FoldMatch('a', 'a') && FoldMatch('v', 'v');
    SpelledFolds(s, ".wav", ".Wav");
  }
}

=== FILE: paths.dfy ===
/** POSIX path helpers the output-file code calls (`os.path.dirname`). */
module Paths {

  /** Index just past the last '/' of `p`, or 0 when `p` has none. */
  function SlashEnd(p: string): (i: nat)
    ensures i <= |p|
    ensures i > 0 ==> p[i - 1] == '/'
    ensures forall j :: i <= j < |p| ==> p[j] != '/'
    decreases |p|
  {
    if |p| == 0 then 0
    else if p[|p| - 1] == '/' then |p|
    else SlashEnd(p[..|p| - 1])
  }

  /** `s.rstrip('/')`. */
  function StripTrailingSlashes(s: string): (r: string)
    ensures r <= s
    ensures |r| == 0 || r[|r| - 1] != '/'
    ensures forall j :: |r| <= j < |s| ==> s[j] == '/'
    decreases |s|
  {
    if |s| > 0 && s[|s| - 1] == '/' then StripTrailingSlashes(s[..|s| - 1]) else s
  }

  predicate AllSlashes(s: string) {
    forall i :: 0 <= i < |s| ==> s[i] == '/'
  }

  /** Python's `posixpath.dirname(p)`: everything before the last '/', with
      trailing slashes removed unless the head consists of slashes only. */
  function Dirname(p: string): (d: string)
    ensures d <= p
  {
    var head := p[..SlashEnd(p)];
    if head != "" && !AllSlashes(head) then StripTrailingSlashes(head) else head
  }

  /** A path has an empty directory part exactly when it contains no '/':
      a bare file name in the current directory. */
  lemma DirnameEmptyIffBare(p: string)
    ensures Dirname(p) == "" <==> (forall j :: 0 <= j < |p| ==> p[j] != '/')
  {
    var i := SlashEnd(p);
    var head := p[..i];
    if i > 0 {
      assert head[i - 1] == '/';
    }
  }

  lemma SlashEndOfJoin(dir: string, name: string)
    requires forall j :: 0 <= j < |name| ==> name[j] != '/'
    ensures SlashEnd(dir + "/" + name) == |dir| + 1
  {
    var p := dir + "/" + name;
    var i := SlashEnd(p);
    assert p[|dir|] == '/';
    if i < |dir| + 1 {
      assert false;
    }
  }

  /** The directory part of `dir + "/" + name` is `dir` again, for a file name
      without slashes and a directory without a trailing slash: a path built from
      the working directory and a fixed file name lives in that directory. */
  lemma DirnameOfJoin(dir: string, name: string)
    requires |dir| > 0 && dir[|dir| - 1] != '/'
    requires forall j :: 0 <= j < |name| ==> name[j] != '/'
    ensures Dirname(dir + "/" + name) == dir
  {
    var p := dir + "/" + name;
    SlashEndOfJoin(dir, name);
    var head := p[..|dir| + 1];
    assert head == dir + "/";
    assert head[|dir| - 1] != '/';
    assert StripTrailingSlashes(head) == StripTrailingSlashes(dir);
  }
}

=== FILE: pipeline.dfy ===
/** The public entry points of toorpia/utils.py (`create_type_weight`,
    `create_basemap`, `addplot`) and the segment filter they may run, as
    compositions of the resolver and builder steps.  The external commands are
    not run: each entry point returns the options and filesystem it leaves
    behind and the command lines it would start, in order.  Every command is
    taken to succeed. */
module Pipeline {
  import opened Text
  import opened Config
  import opened Resolver
  import opened Builder
  import opened Viewers

  datatype Option<T> = None | Some(value: T)

  /** The keys the type check and the requirement checks may set. */
  const SettledKeys: set<string> := {"rawdata_type", "data_index", "sampling_rate", "window_length", "working_dir"}

  /** Every key of `o` outside `except` is still in `r` with its value. */
  predicate Keeps(o: Options, r: Options, except: set<string>) {
    forall k :: k in o && k !in except ==> k in r && r[k] == o[k]
  }

  /** The files a finished command leaves behind: its redirection targets. */
  function Run(fs: Fs, inv: Invocation): (r: Fs)
    ensures fs.present <= r.present
    ensures inv.stdout in r.present
    ensures inv.stderr != "" ==> inv.stderr in r.present
    ensures r.present <= fs.present + {inv.stdout, inv.stderr}
    ensures r.readPerm == fs.readPerm && r.writePerm == fs.writePerm
  {
    var out := fs.Add(inv.stdout);
    if inv.stderr == "" then out else out.Add(inv.stderr)
  }

  // ---------------------------------------------------------------------------
  // the segment extractor: lines 243-250 of create_basemap, 326-333 of addplot

  /** The extractor to run, its option string, and the options after the
      requirement check. */
  datatype Extractor = Extractor(state: State, tool: string, flags: string)

  function PrepareExtractor(st: State): (r: Result<Extractor>)
    requires "rawdata_type" in st.opts && IsKnownType(st.opts["rawdata_type"])
    // the table requirements for table data, the sound requirements otherwise
    ensures r.Ok? <==> (if st.opts["rawdata_type"] == Table then CheckRequiredForTable(st).Ok? else CheckRequiredForSound(st).Ok?)
    ensures (r.Err? && st.opts["rawdata_type"] == Table) ==> r.error == CheckRequiredForTable(st).error
    ensures (r.Err? && st.opts["rawdata_type"] == Sound) ==> r.error == CheckRequiredForSound(st).error
    ensures (r.Ok? && st.opts["rawdata_type"] == Table) ==> r.value.state == CheckRequiredForTable(st).value
    ensures (r.Ok? && st.opts["rawdata_type"] == Sound) ==> r.value.state == CheckRequiredForSound(st).value
    // mkcsvseg for table data, mkfftseg for sound data
    ensures r.Ok? ==> (r.value.tool == "mkcsvseg" <==> st.opts["rawdata_type"] == Table)
    ensures r.Ok? ==> (r.value.tool == "mkfftseg" <==> st.opts["rawdata_type"] == Sound)
    // the option string of the data type, built from the checked options
    ensures (r.Ok? && st.opts["rawdata_type"] == Table) ==> MakeOptionStrForTable(r.value.state.opts) == Ok(r.value.flags)
    ensures (r.Ok? && st.opts["rawdata_type"] == Sound) ==> MakeOptionStrForSound(r.value.state.opts) == Ok(r.value.flags)
  {
    if st.opts["rawdata_type"] == Table then
      var s :- CheckRequiredForTable(st);
      TableRequirementsEnableFlags(st);
      Ok(Extractor(s, "mkcsvseg", MakeOptionStrForTable(s.opts).value))
    else
      var s :- CheckRequiredForSound(st);
      SoundRequirementsEnableFlags(st);
      Ok(Extractor(s, "mkfftseg", MakeOptionStrForSound(s.opts).value))
  }

  /** Once the table requirements hold, the table option string can be built. */
  lemma TableRequirementsEnableFlags(st: State)
    ensures CheckRequiredForTable(st).Ok? ==> MakeOptionStrForTable(CheckRequiredForTable(st).value.opts).Ok?
  {
  }

  /** Once the sound requirements hold, the sound option string can be built:
      the defaults supply every key it reads. */
  lemma SoundRequirementsEnableFlags(st: State)
    ensures CheckRequiredForSound(st).Ok? ==> MakeOptionStrForSound(CheckRequiredForSound(st).value.opts).Ok?
  {
    if CheckRequiredForSound(st).Ok? {
      var o := CheckRequiredForSound(st).value.opts;
      assert o["rawdata"] == st.opts["rawdata"];
    }
  }

  // ---------------------------------------------------------------------------
  // multi_filter / multi_filter_add

  /** Which segment file the filter rewrites. */
  datatype Target = BaseSegment | AddSegment {
    function Key(): string {
      match this
      case BaseSegment => "base_segment"
      case AddSegment => "add_segment"
    }
  }

  /** The options and filesystem after the filter, and its command. */
  datatype Filtered = Filtered(state: State, run: Invocation)

  /** Band filtering of a sound segment file.  The filter writes to
      `<working_dir>/masked_segment.csv`, which then replaces the segment file. */
  function MultiFilter(st: State, target: Target): (r: Result<Filtered>)
    ensures "multi_filter_option" !in st.opts ==> r == Err(FilterOptionRequired)
    ensures r.Ok? ==> "rawdata_type" in r.value.state.opts && r.value.state.opts["rawdata_type"] == Sound
    ensures r.Ok? ==> ("sampling_rate" in r.value.state.opts && HasStrWorkingDir(r.value.state.opts)
      && "multi_filter_option" in r.value.state.opts)
    // the segment file existed, or is the working directory or one of its
    // parents, which the sound checks have just made
    ensures r.Ok? ==> (IsStrOption(r.value.state.opts, target.Key())
      && var seg := r.value.state.opts[target.Key()].s;
      seg in st.fs.present || (seg != "" && seg <= r.value.state.opts["working_dir"].s))
    // the command reads the segment file and writes the masked one
    ensures r.Ok? ==> (
      var o := r.value.state.opts;
      r.value.run == Invocation(
        FilterCommand(Render(o["multi_filter_option"]), Render(o["sampling_rate"]), o[target.Key()].s),
        o["working_dir"].s + "/masked_segment.csv", ""))
    // the segment file is still there afterwards
    ensures r.Ok? ==> r.value.state.opts[target.Key()].s in r.value.state.fs.present
    // only what the type and sound checks settle changes
    ensures r.Ok? ==> Keeps(st.opts, r.value.state.opts, SettledKeys)
    ensures r.Ok? ==> r.value.state.opts.Keys <= st.opts.Keys + SettledKeys
    ensures r.Ok? ==> st.fs.present - {r.value.run.stdout} <= r.value.state.fs.present
  {
    if "multi_filter_option" !in st.opts then Err(FilterOptionRequired)
    else
      var o1 :- CheckRawdataType(st.opts);
      if o1["rawdata_type"] == Table then Err(FilterOnTable)
      else
        var s :- CheckRequiredForSound(State(o1, st.fs));
        var seg :- GetStr(s.opts, target.Key());
        if seg !in s.fs.present then Err(SegmentRequired(target.Key()))
        else if "sampling_rate" !in s.opts then Err(SampleRateRequired)
        else
          var masked := s.opts["working_dir"].s + "/masked_segment.csv";
          var run := Invocation(
            FilterCommand(Render(s.opts["multi_filter_option"]), Render(s.opts["sampling_rate"]), seg),
            masked, "");
          Ok(Filtered(State(s.opts, s.fs.Add(masked).Remove(seg).Remove(masked).Add(seg)), run))
  }

  /** The filter refuses for want of a sampling rate only when the whole
      `rawdata` string has neither a csv nor a wav suffix (then nothing defaults
      it); otherwise the sound defaults always supply one. */
  lemma SampleRateRequiredOnlyWithoutSuffix(st: State, target: Target)
    requires MultiFilter(st, target) == Err(SampleRateRequired)
    ensures !WholeIsCsv(st.opts) && !WholeIsWav(st.opts)
    ensures "sampling_rate" !in st.opts
  {
    var o1 := CheckRawdataType(st.opts).value;
    assert o1["rawdata"] == st.opts["rawdata"];
    assert o1["rawdata_type"] != Table;
    var s := CheckRequiredForSound(State(o1, st.fs)).value;
    assert "sampling_rate" !in s.opts;
    assert "sampling_rate" !in o1;
  }

  /** The filter command line: band string, sampling rate, segment file. */
  function FilterCommand(band: string, rate: string, seg: string): (c: string)
    ensures (IsWord(band) && IsWord(rate) && IsWord(seg)) ==>
      Words(c) == ["/usr/local/bin/filter", "-f", band, "--sr", rate, seg]
  {
    var c := "/usr/local/bin/filter" + " -f " + band + " --sr " + rate + " " + seg;
    FilterWords("/usr/local/bin/filter", band, rate, seg);
    c
  }

  lemma FilterWords(prog: string, band: string, rate: string, seg: string)
    requires IsWord(prog)
    ensures (IsWord(band) && IsWord(rate) && IsWord(seg)) ==>
      Words(prog + " -f " + band + " --sr " + rate + " " + seg) == [prog, "-f", band, "--sr", rate, seg]
  {
    if IsWord(band) && IsWord(rate) && IsWord(seg) {
      var x1 := prog + " -f " + band;
      var x2 := x1 + " --sr " + rate;
      assert x1 == prog + " " + "-f" + " " + band;
      assert x2 == x1 + " " + "--sr" + " " + rate;
      WordsOfWord(prog);
      AppendPair(prog, "-f", band);
      AppendPair(x1, "--sr", rate);
      WordsOfJoin(x2, seg);
      WordsOfWord(seg);
    }
  }

  /** `tool options files...`: a program name, then an option string and the
      raw-data string spliced in as they are. */
  lemma ToolWords(prog: string, flags: string, raw: string)
    requires IsWord(prog)
    ensures Words(prog + " " + flags + " " + raw) == [prog] + Words(flags) + Words(raw)
  {
    assert prog + " " + flags + " " + raw == prog + " " + (flags + " " + raw);
    WordsOfJoin(prog, flags + " " + raw);
    WordsOfJoin(flags, raw);
    WordsOfWord(prog);
  }

  // ---------------------------------------------------------------------------
  // create_type_weight

  /** The options and filesystem an entry point leaves, and its commands. */
  datatype Staged = Staged(state: State, runs: seq<Invocation>)

  /** The type-weight command: `mkcsvseg -o <type_weight> <rawdata>`. */
  function TypeWeightCommand(tw: string, raw: string): (c: string)
    ensures IsWord(tw) ==> Words(c) == ["mkcsvseg", "-o", tw] + Words(raw)
  {
    ToolWords("mkcsvseg", "-o " + tw, raw);
    HeadWords(tw);
    "mkcsvseg" + " " + ("-o " + tw) + " " + raw
  }

  /** What `create_type_weight` does before it looks at the data type: the
      existence and working-directory checks, the template path (by default
      under the working directory), and the removal of an existing template.
      The removal has happened by the time a type error or the sound refusal
      is raised. */
  function TypeWeightPrelude(o: Options, fs: Fs): (r: Result<State>)
    ensures CheckRawdataExistence(o, fs).Err? ==> r == Err(CheckRawdataExistence(o, fs).error)
    ensures CheckRawdataExistence(o, fs).Ok? && CheckWorkingDir(State(o, fs)).Err? ==>
      r == Err(CheckWorkingDir(State(o, fs)).error)
    ensures r.Ok? ==> CheckRawdataExistence(o, fs).Ok? && CheckWorkingDir(State(o, fs)).Ok?
    ensures r.Ok? ==> (IsStrOption(r.value.opts, "type_weight") && HasStrWorkingDir(r.value.opts))
    ensures (r.Ok? && "type_weight" !in o) ==>
      r.value.opts["type_weight"].s == r.value.opts["working_dir"].s + "/type_weight.csv"
    ensures r.Ok? && "type_weight" in o ==> r.value.opts["type_weight"] == o["type_weight"]
    ensures r.Ok? ==> r.value.opts.Keys == o.Keys + {"working_dir", "type_weight"}
    ensures r.Ok? ==> forall k :: k in o ==> r.value.opts[k] == o[k]
    // the old template is gone, and nothing else is
    ensures r.Ok? ==> r.value.fs == CheckWorkingDir(State(o, fs)).value.fs.Remove(r.value.opts["type_weight"].s)
    ensures r.Ok? ==> r.value.opts["type_weight"].s !in r.value.fs.present
  {
    var ok :- CheckRawdataExistence(o, fs);
    var s :- CheckWorkingDir(State(o, fs));
    var o1 := Default(s.opts, "type_weight", Str(s.opts["working_dir"].s + "/type_weight.csv"));
    var tw :- GetStr(o1, "type_weight");
    var fs1 := if tw in s.fs.present then s.fs.Remove(tw) else s.fs;
    assert fs1 == s.fs.Remove(tw);
    Ok(State(o1, fs1))
  }

  /** Writes the type-weight template for table data.  An existing template is
      removed first; `mkcsvseg -o` writes the new one. */
  function CreateTypeWeight(o: Options, fs: Fs): (r: Result<Staged>)
    ensures TypeWeightPrelude(o, fs).Err? ==> r == Err(TypeWeightPrelude(o, fs).error)
    ensures r.Ok? ==> CheckRawdataExistence(o, fs).Ok? && CheckWorkingDir(State(o, fs)).Ok?
    // after the removal, a type error or sound data ends the call
    ensures TypeWeightPrelude(o, fs).Ok? ==> (
      var p := TypeWeightPrelude(o, fs).value;
      && (CheckRawdataType(p.opts).Err? ==> r == Err(CheckRawdataType(p.opts).error))
      && (CheckRawdataType(p.opts).Ok? ==>
            (r == Err(TypeWeightNotNeeded) <==> CheckRawdataType(p.opts).value["rawdata_type"] == Sound)))
    // only table data needs a template
    ensures r.Ok? ==> "rawdata_type" in r.value.state.opts && r.value.state.opts["rawdata_type"] == Table
    ensures r.Ok? ==> (IsStrOption(r.value.state.opts, "type_weight") && HasStrWorkingDir(r.value.state.opts))
    ensures (r.Ok? && "type_weight" !in o) ==>
      r.value.state.opts["type_weight"].s == r.value.state.opts["working_dir"].s + "/type_weight.csv"
    ensures r.Ok? && "type_weight" in o ==> r.value.state.opts["type_weight"] == o["type_weight"]
    // one command, its output discarded and its errors logged beside the template
    ensures r.Ok? ==> (
      var tw := r.value.state.opts["type_weight"].s;
      && |r.value.runs| == 1
      && r.value.runs[0].stdout == "/dev/null" && r.value.runs[0].stderr == tw + ".log"
      && (IsWord(tw) ==> Words(r.value.runs[0].command) == ["mkcsvseg", "-o", tw] + Words(o["rawdata"].s))
      && tw in r.value.state.fs.present)
    // the template and its log are the only files written
    ensures r.Ok? ==> (
      var tw := r.value.state.opts["type_weight"].s;
      r.value.state.fs.present == TypeWeightPrelude(o, fs).value.fs.present + {tw, tw + ".log"})
  {
    var s :- TypeWeightPrelude(o, fs);
    var tw := s.opts["type_weight"].s;
    var o2 :- CheckRawdataType(s.opts);
    if o2["rawdata_type"] == Sound then Err(TypeWeightNotNeeded)
    else
      var raw :- GetStr(o2, "rawdata");
      var run := Invocation(TypeWeightCommand(tw, raw), "/dev/null", tw + ".log");
      // standard output goes to `/dev/null`, which the command does not create
      Ok(Staged(State(o2, s.fs.Add(run.stderr).Add(tw)), [run]))
  }

  /** After `create_type_weight`, the table requirements of `create_basemap`
      hold: the template it promised to write is where the options say. */
  lemma TypeWeightEnablesTable(o: Options, fs: Fs)
    requires CreateTypeWeight(o, fs).Ok?
    ensures CheckRequiredForTable(CreateTypeWeight(o, fs).value.state).Ok?
  {
    var st := CreateTypeWeight(o, fs).value.state;
    var wd := st.opts["working_dir"].s;
    assert WorkingDir(st.opts) == Str(wd);
    assert wd in fs.writePerm;
  }

  /** A wav first file never gets a template: once the existence and
      working-directory checks pass, the refusal is that sound data needs none. */
  lemma NoTypeWeightForSound(o: Options, fs: Fs)
    requires HasFirstFile(o) && IsWavName(FirstFile(o))
    requires CheckRawdataExistence(o, fs).Ok? && CheckWorkingDir(State(o, fs)).Ok?
    requires StrIfGiven(o, "type_weight")
    ensures CreateTypeWeight(o, fs) == Err(TypeWeightNotNeeded)
  {
    var s := CheckWorkingDir(State(o, fs)).value;
    var o1 := Default(s.opts, "type_weight", Str(s.opts["working_dir"].s + "/type_weight.csv"));
    assert o1["rawdata"] == o["rawdata"];
    assert FirstFile(o1) == FirstFile(o);
    WavFirstFileIsSound(o1);
  }

  // ---------------------------------------------------------------------------
  // create_basemap and addplot

  /** Every key outside `touched` is present in `b` exactly when it is in
      `a`, with the same value. */
  ghost predicate Untouched(a: Options, b: Options, touched: set<string>) {
    forall k :: k !in touched ==> SameAt(a, b, k)
  }

  lemma UntouchedTransitive(a: Options, b: Options, c: Options, touched: set<string>)
    requires Untouched(a, b, touched) && Untouched(b, c, touched)
    ensures Untouched(a, c, touched)
  {
    forall k | k !in touched
      ensures SameAt(a, c, k)
    {
      assert SameAt(a, b, k) && SameAt(b, c, k);
    }
  }

  /** The output paths the entry points default under the working directory. */
  const PathKeys: set<string> :=
    {"base_segment", "base_xy", "status_mi", "add_segment", "add_xy", "add_status_mi", "status_ms"}

  /** The four viewer switches. */
  const SwitchKeys: set<string> :=
    {"map_inspector", "map_inspector_sharable", "monitoring_scope", "monitoring_scope_sharable"}

  /** What every stage after the checks passes on untouched: the viewer
      switches, the raw data and the band filter setting. */
  predicate Carries(a: Options, b: Options) {
    && SameSwitches(a, b)
    && SameAt(a, b, "rawdata") && SameAt(a, b, "multi_filter_option")
  }

  /** The segment and coordinate files of both entry points. */
  predicate SameOutputs(a: Options, b: Options) {
    && SameAt(a, b, "base_segment") && SameAt(a, b, "base_xy")
    && SameAt(a, b, "add_segment") && SameAt(a, b, "add_xy")
  }

  /** The checks set only settled keys, so the switches, raw data, filter
      setting and output paths pass through them. */
  lemma SettledFrame(a: Options, b: Options)
    requires Untouched(a, b, SettledKeys)
    ensures Carries(a, b) && SameOutputs(a, b)
  {
    assert "map_inspector" !in SettledKeys && "map_inspector_sharable" !in SettledKeys;
    assert "monitoring_scope" !in SettledKeys && "monitoring_scope_sharable" !in SettledKeys;
    assert "rawdata" !in SettledKeys && "multi_filter_option" !in SettledKeys;
    assert "base_segment" !in SettledKeys && "base_xy" !in SettledKeys;
    assert "add_segment" !in SettledKeys && "add_xy" !in SettledKeys;
  }

  /** Defaulting output paths touches neither the carried keys nor the type. */
  lemma PathFrame(a: Options, b: Options)
    requires Untouched(a, b, PathKeys)
    ensures Carries(a, b) && SameAt(a, b, "rawdata_type")
  {
    assert "map_inspector" !in PathKeys && "map_inspector_sharable" !in PathKeys;
    assert "monitoring_scope" !in PathKeys && "monitoring_scope_sharable" !in PathKeys;
    assert "rawdata" !in PathKeys && "multi_filter_option" !in PathKeys;
    assert "rawdata_type" !in PathKeys;
  }

  /** The viewer switches touch no output path. */
  lemma SwitchFrame(a: Options, b: Options)
    requires Untouched(a, b, SwitchKeys)
    ensures SameOutputs(a, b)
  {
    assert "base_segment" !in SwitchKeys && "base_xy" !in SwitchKeys;
    assert "add_segment" !in SwitchKeys && "add_xy" !in SwitchKeys;
  }

  lemma CarriesTransitive(a: Options, b: Options, c: Options)
    requires Carries(a, b) && Carries(b, c)
    ensures Carries(a, c)
  {
  }

  /** Type inference sets nothing but `rawdata_type`. */
  lemma TypeCheckFrame(o: Options)
    requires CheckRawdataType(o).Ok?
    ensures Untouched(o, CheckRawdataType(o).value, SettledKeys)
  {
    var r := CheckRawdataType(o).value;
    forall k | k !in SettledKeys
      ensures SameAt(o, r, k)
    {
      assert k != "rawdata_type";
    }
  }

  lemma WorkingDirFrame(st: State)
    requires CheckWorkingDir(st).Ok?
    ensures var s := CheckWorkingDir(st).value;
      && Untouched(st.opts, s.opts, SettledKeys) && SameAt(st.opts, s.opts, "rawdata_type")
      && st.fs.present <= s.fs.present
  {
    var s := CheckWorkingDir(st).value;
    forall k | k !in SettledKeys || k == "rawdata_type"
      ensures SameAt(st.opts, s.opts, k)
    {
      assert k != "working_dir";
    }
  }

  lemma SoundDefaultsFrame(o: Options, raw: string)
    ensures Untouched(o, SoundDefaults(o, raw), SettledKeys)
    ensures SameAt(o, SoundDefaults(o, raw), "rawdata_type")
  {
    var d := SoundDefaults(o, raw);
    forall k | k !in SettledKeys || k == "rawdata_type"
      ensures SameAt(o, d, k)
    {
      assert k != "data_index" && k != "sampling_rate" && k != "window_length";
    }
  }

  lemma SoundCheckFrame(st: State)
    requires CheckRequiredForSound(st).Ok?
    ensures var s := CheckRequiredForSound(st).value;
      && Untouched(st.opts, s.opts, SettledKeys) && SameAt(st.opts, s.opts, "rawdata_type")
      && st.fs.present <= s.fs.present
  {
    var raw := st.opts["rawdata"].s;
    var d := SoundDefaults(st.opts, raw);
    assert CheckRequiredForSound(st) == CheckWorkingDir(State(d, st.fs));
    WorkingDirFrame(State(d, st.fs));
    SoundDefaultsFrame(st.opts, raw);
    UntouchedTransitive(st.opts, d, CheckWorkingDir(State(d, st.fs)).value.opts, SettledKeys);
  }

  /** The requirement checks only fill in defaults and the working directory,
      keep the data type, and only add to the filesystem. */
  lemma ExtractorFrame(st: State)
    requires "rawdata_type" in st.opts && IsKnownType(st.opts["rawdata_type"])
    requires PrepareExtractor(st).Ok?
    ensures var s := PrepareExtractor(st).value.state;
      && Untouched(st.opts, s.opts, SettledKeys) && SameAt(st.opts, s.opts, "rawdata_type")
      && st.fs.present <= s.fs.present
  {
    if st.opts["rawdata_type"] == Table {
      WorkingDirFrame(st);
    } else {
      SoundCheckFrame(st);
    }
  }

  /** The steps both entry points begin with: raw-data existence, type
      inference, then the requirements and option string of the type. */
  function PrepareSegments(o: Options, fs: Fs): (r: Result<Extractor>)
    ensures CheckRawdataExistence(o, fs).Err? ==> r == Err(CheckRawdataExistence(o, fs).error)
    ensures (CheckRawdataExistence(o, fs).Ok? && CheckRawdataType(o).Err?) ==> r == Err(CheckRawdataType(o).error)
    ensures (CheckRawdataExistence(o, fs).Ok? && CheckRawdataType(o).Ok?) ==>
      r == PrepareExtractor(State(CheckRawdataType(o).value, fs))
    ensures r.Ok? ==> CheckRawdataExistence(o, fs).Ok? && CheckRawdataType(o).Ok?
    ensures r.Ok? ==> ("rawdata_type" in r.value.state.opts
      && r.value.state.opts["rawdata_type"] == CheckRawdataType(o).value["rawdata_type"])
    ensures r.Ok? ==> (Carries(o, r.value.state.opts) && SameOutputs(o, r.value.state.opts)
      && fs.present <= r.value.state.fs.present)
  {
    var ok :- CheckRawdataExistence(o, fs);
    var o1 :- CheckRawdataType(o);
    var ex :- PrepareExtractor(State(o1, fs));
    TypeCheckFrame(o);
    ExtractorFrame(State(o1, fs));
    UntouchedTransitive(o, o1, ex.state.opts, SettledKeys);
    SettledFrame(o, ex.state.opts);
    Ok(ex)
  }

  /** The segment command: `<tool> <options> <rawdata>`. */
  function SegmentRun(ex: Extractor, raw: string, seg: string): (inv: Invocation)
    ensures IsWord(ex.tool) ==> Words(inv.command) == [ex.tool] + Words(ex.flags) + Words(raw)
    ensures inv.stdout == seg && inv.stderr == seg + ".log"
  {
    if IsWord(ex.tool) then ToolWords(ex.tool, ex.flags, raw); Invocation(ex.tool + " " + ex.flags + " " + raw, seg, seg + ".log")
    else Invocation(ex.tool + " " + ex.flags + " " + raw, seg, seg + ".log")
  }

  /** Sound data with a band filter set gets its segment file filtered. */
  predicate Filters(o: Options) {
    "rawdata_type" in o && o["rawdata_type"] == Sound && "multi_filter_option" in o
  }

  /** The filter re-runs the checks, which set only settled keys and leave
      sound data sound. */
  lemma FilterFrame(st: State, target: Target)
    requires "rawdata_type" in st.opts && st.opts["rawdata_type"] == Sound
    requires MultiFilter(st, target).Ok?
    ensures var s := MultiFilter(st, target).value.state;
      && Carries(st.opts, s.opts) && SameOutputs(st.opts, s.opts) && SameAt(st.opts, s.opts, "rawdata_type")
  {
    var s := MultiFilter(st, target).value.state;
    assert Untouched(st.opts, s.opts, SettledKeys);
    SettledFrame(st.opts, s.opts);
  }

  /** The segment command, then the filter when it applies. */
  method SegmentStage(st: State, ex: Extractor, raw: string, target: Target) returns (r: Result<Staged>)
    requires IsStrOption(st.opts, target.Key())
    ensures r.Ok? ==> (|r.value.runs| == 1 || |r.value.runs| == 2)
    ensures r.Ok? ==> (|r.value.runs| == 2 <==> Filters(st.opts))
    ensures r.Ok? ==> r.value.runs[0] == SegmentRun(ex, raw, st.opts[target.Key()].s)
    ensures !Filters(st.opts) ==> r.Ok? && r.value.state.opts == st.opts
    ensures Filters(st.opts) ==>
      r.Err? == MultiFilter(State(st.opts, Run(st.fs, SegmentRun(ex, raw, st.opts[target.Key()].s))), target).Err?
    ensures r.Err? ==>
      (var m := MultiFilter(State(st.opts, Run(st.fs, SegmentRun(ex, raw, st.opts[target.Key()].s))), target);
        m.Err? && r == Err(m.error))
    ensures r.Ok? ==> st.opts[target.Key()].s in r.value.state.fs.present
    ensures r.Ok? ==> st.fs.present - {r.value.runs[|r.value.runs| - 1].stdout} <= r.value.state.fs.present
    ensures r.Ok? ==> (Carries(st.opts, r.value.state.opts) && SameOutputs(st.opts, r.value.state.opts)
      && SameAt(st.opts, r.value.state.opts, "rawdata_type"))
  {
    var seg := st.opts[target.Key()].s;
    var run := SegmentRun(ex, raw, seg);
    var s1 := State(st.opts, Run(st.fs, run));
    if Filters(st.opts) {
      var f :- MultiFilter(s1, target);
      FilterFrame(s1, target);
      r := Ok(Staged(f.state, [run, f.run]));
    } else {
      r := Ok(Staged(s1, [run]));
    }
  }

  lemma ModeWords(prog: string, mode: string, files: string)
    requires IsWord(prog) && IsWord(mode)
    ensures Words(prog + " -m " + mode + " " + files) == [prog, "-m", mode] + Words(files)
  {
    var x := prog + " -m " + mode;
    assert x == prog + " " + "-m" + " " + mode;
    assert prog + " -m " + mode + " " + files == x + " " + files;
    WordsOfWord(prog);
    AppendPair(prog, "-m", mode);
    WordsOfJoin(x, files);
  }

  /** The projector's two modes. */
  datatype Mode = Base | Add {
    function Name(): string {
      match this
      case Base => "base"
      case Add => "add"
    }
  }

  lemma ProjectorNamesAreWords()
    ensures IsWord("toorpia") && IsWord(Base.Name()) && IsWord(Add.Name())
  {
  }

  /** The projector: `toorpia -m <mode> <segment files...>`, coordinates to
      `out`, errors to `out.log`. */
  function ProjectorRun(mode: Mode, files: string, out: string): (inv: Invocation)
    ensures Words(inv.command) == ["toorpia", "-m", mode.Name()] + Words(files)
    ensures inv.stdout == out && inv.stderr == out + ".log"
  {
    ProjectorNamesAreWords();
    ModeWords("toorpia", mode.Name(), files);
    Invocation("toorpia" + " -m " + mode.Name() + " " + files, out, out + ".log")
  }

  /** What an entry point leaves and starts: the options and filesystem, the
      commands in order, the map-inspector decision with the single raw csv it
      is handed (if any), and the monitoring-scope decision. */
  datatype Plan = Plan(state: State, runs: seq<Invocation>, inspector: Launch, rawcsv: Option<string>, scope: Launch)

  /** The four viewer switches. */
  predicate SameSwitches(a: Options, b: Options) {
    && SameAt(a, b, "map_inspector") && SameAt(a, b, "map_inspector_sharable")
    && SameAt(a, b, "monitoring_scope") && SameAt(a, b, "monitoring_scope_sharable")
  }

  /** The raw csv handed to the map inspector: the `rawdata` string itself
      when it names a single file and the inspector is started. */
  function RawCsv(launch: Launch, raw: string): (c: Option<string>)
    ensures c.Some? <==> launch.Launched? && |Words(raw)| == 1
    ensures c.Some? ==> c.value == raw
  {
    if launch.Launched? && |Words(raw)| == 1 then Some(raw) else None
  }

  /** Settling the basemap output paths changes none of the carried keys and
      keeps a given path. */
  lemma BasemapPathsFrame(st: State)
    requires SetOutputFileForBasemap(st).Ok?
    ensures var s := SetOutputFileForBasemap(st).value.opts;
      && Carries(st.opts, s) && SameAt(st.opts, s, "rawdata_type")
      && ("base_segment" in st.opts ==> s["base_segment"] == st.opts["base_segment"])
      && ("base_xy" in st.opts ==> s["base_xy"] == st.opts["base_xy"])
  {
    var s := SetOutputFileForBasemap(st).value.opts;
    forall k | k !in PathKeys
      ensures SameAt(st.opts, s, k)
    {
      assert k != "base_segment" && k != "base_xy" && k != "status_mi";
    }
    PathFrame(st.opts, s);
  }

  /** How an entry point goes on from the preparation `paths`, seen through
      `outcome`: the error it raises, or else its first command.  An error of
      the preparation surfaces unchanged; otherwise the first command is the
      segment command of the prepared extractor on the given raw data, writing
      the `target` segment file, and only the band filter can fail after it. */
  predicate FollowsPaths(paths: Result<(Extractor, State)>, o: Options, target: Target, outcome: Result<Invocation>) {
    && (paths.Err? ==> outcome == Err(paths.error))
    && (paths.Ok? && IsStrOption(o, "rawdata") && IsStrOption(paths.value.1.opts, target.Key()) ==> (
      var ex := paths.value.0;
      var s := paths.value.1;
      var run := SegmentRun(ex, o["rawdata"].s, s.opts[target.Key()].s);
      && (outcome.Ok? ==> outcome.value == run)
      && (!Filters(s.opts) ==> outcome.Ok?)
      && (outcome.Err? ==> (var m := MultiFilter(State(s.opts, Run(s.fs, run)), target); m.Err? && outcome.error == m.error))))
  }

  /** Everything `create_basemap` settles before its segment command: the
      preparation, then the basemap output paths and their directories. */
  function BasemapPaths(o: Options, fs: Fs): (r: Result<(Extractor, State)>)
    // the preparation's errors first, then the output-path step's
    ensures PrepareSegments(o, fs).Err? ==> r == Err(PrepareSegments(o, fs).error)
    ensures PrepareSegments(o, fs).Ok? ==> (
      var st := PrepareSegments(o, fs).value.state;
      && (SetOutputFileForBasemap(st).Err? ==> r == Err(SetOutputFileForBasemap(st).error))
      && (SetOutputFileForBasemap(st).Ok? ==> r == Ok((PrepareSegments(o, fs).value, SetOutputFileForBasemap(st).value))))
    ensures r.Ok? ==> CheckRawdataExistence(o, fs).Ok? && CheckRawdataType(o).Ok?
    ensures r.Ok? ==> (
      var opts := r.value.1.opts;
      && IsStrOption(opts, "base_segment") && IsStrOption(opts, "base_xy")
      && ("base_segment" in o ==> opts["base_segment"] == o["base_segment"])
      && ("base_xy" in o ==> opts["base_xy"] == o["base_xy"])
      && "rawdata_type" in opts && opts["rawdata_type"] == CheckRawdataType(o).value["rawdata_type"])
    ensures r.Ok? ==> Carries(o, r.value.1.opts) && fs.present <= r.value.1.fs.present
  {
    var ex :- PrepareSegments(o, fs);
    var s :- SetOutputFileForBasemap(ex.state);
    BasemapPathsFrame(ex.state);
    CarriesTransitive(o, ex.state.opts, s.opts);
    Ok((ex, s))
  }

  /** The first half of `create_basemap`: preparation, output paths, the
      segment command and the filter when it applies. */
  method BasemapSegments(o: Options, fs: Fs) returns (r: Result<Staged>)
    ensures CheckRawdataExistence(o, fs).Err? ==> r == Err(CheckRawdataExistence(o, fs).error)
    ensures (CheckRawdataExistence(o, fs).Ok? && CheckRawdataType(o).Err?) ==> r == Err(CheckRawdataType(o).error)
    ensures r.Ok? ==> CheckRawdataExistence(o, fs).Ok? && CheckRawdataType(o).Ok?
    // every error of the requirement checks and the output paths surfaces
    ensures BasemapPaths(o, fs).Err? ==> r == Err(BasemapPaths(o, fs).error)
    ensures r.Ok? ==> (|r.value.runs| == 1 || |r.value.runs| == 2)
    ensures r.Ok? ==>
      (|r.value.runs| == 2 <==> CheckRawdataType(o).value["rawdata_type"] == Sound && "multi_filter_option" in o)
    ensures r.Ok? ==> (
      var opts := r.value.state.opts;
      && IsStrOption(opts, "base_segment") && IsStrOption(opts, "base_xy")
      && r.value.runs[0].stdout == opts["base_segment"].s
      && r.value.runs[0].stderr == opts["base_segment"].s + ".log"
      && opts["base_segment"].s in r.value.state.fs.present
      && ("base_segment" in o ==> opts["base_segment"] == o["base_segment"])
      && ("base_xy" in o ==> opts["base_xy"] == o["base_xy"]))
    ensures r.Ok? ==> Carries(o, r.value.state.opts)
    // then the segment command of the prepared extractor; only the filter can fail after it
    ensures FollowsPaths(BasemapPaths(o, fs), o, BaseSegment, if r.Ok? then Ok(r.value.runs[0]) else Err(r.error))
  {
    var p :- BasemapPaths(o, fs);
    var (ex, s) := p;
    assert SameAt(o, s.opts, "rawdata");
    var raw := o["rawdata"].s;
    var seg :- SegmentStage(s, ex, raw, BaseSegment);
    CarriesTransitive(o, s.opts, seg.state.opts);
    r := Ok(seg);
  }

  /** What `create_basemap` promises about a plan against the options it was
      given: the segments come first with their log beside them, and the
      projector over them comes last, writing `base_xy`; given paths are kept
      and both outputs exist. */
  predicate BasemapPlanned(o: Options, p: Plan) {
    var runs := p.runs;
    && |runs| > 0
    && (var bs := runs[0].stdout;
      var xy := runs[|runs| - 1].stdout;
      && runs[0].stderr == bs + ".log"
      && runs[|runs| - 1] == ProjectorRun(Base, bs, xy)
      && (IsWord(bs) ==> Words(runs[|runs| - 1].command) == ["toorpia", "-m", "base", bs])
      // a given output path is used as given
      && ("base_segment" in o ==> o["base_segment"] == Str(bs))
      && ("base_xy" in o ==> o["base_xy"] == Str(xy))
      // both outputs exist afterwards
      && bs in p.state.fs.present && xy in p.state.fs.present)
  }

  /** The second half of `create_basemap`: the projector over the basemap
      segments, then the map-inspector switch. */
  method BasemapProjection(o: Options, seg: Staged) returns (p: Plan)
    requires IsStrOption(seg.state.opts, "base_segment") && IsStrOption(seg.state.opts, "base_xy")
    requires Carries(o, seg.state.opts) && IsStrOption(o, "rawdata")
    // what the segment stage promises about the segments and the given paths
    requires |seg.runs| > 0
    requires var opts := seg.state.opts;
      && seg.runs[0].stdout == opts["base_segment"].s && seg.runs[0].stderr == opts["base_segment"].s + ".log"
      && opts["base_segment"].s in seg.state.fs.present
      && ("base_segment" in o ==> opts["base_segment"] == o["base_segment"])
      && ("base_xy" in o ==> opts["base_xy"] == o["base_xy"])
    ensures var opts := seg.state.opts;
      var bs := opts["base_segment"].s; var xy := opts["base_xy"].s;
      && p.runs == seg.runs + [ProjectorRun(Base, bs, xy)]
      && (IsWord(bs) ==> Words(p.runs[|p.runs| - 1].command) == ["toorpia", "-m", "base", bs])
      && seg.state.fs.present + {xy} <= p.state.fs.present
    ensures |p.runs| == |seg.runs| + 1 && p.runs[0] == seg.runs[0] && BasemapPlanned(o, p)
    ensures p.inspector == MapInspector(o).launch
    ensures p.rawcsv == RawCsv(p.inspector, o["rawdata"].s)
    ensures p.scope == Skipped
  {
    var bs := seg.state.opts["base_segment"].s;
    var xy := seg.state.opts["base_xy"].s;
    var proj := ProjectorRun(Base, bs, xy);
    if IsWord(bs) {
      WordsOfWord(bs);
    }
    var mi := MapInspector(seg.state.opts);
    MapInspectorReadsSwitches(o, seg.state.opts);
    var raw := seg.state.opts["rawdata"].s;
    p := Plan(State(mi.opts, Run(seg.state.fs, proj)), seg.runs + [proj], mi.launch, RawCsv(mi.launch, raw), Skipped);
  }

  /** `create_basemap`: the segment command (and the filter for filtered sound
      data), then `toorpia -m base <base_segment>` writing `base_xy`, then the
      map-inspector switch.  The monitoring scope is never started. */
  method CreateBasemap(o: Options, fs: Fs) returns (r: Result<Plan>)
    // the existence and type checks come first, and their errors surface unchanged
    ensures CheckRawdataExistence(o, fs).Err? ==> r == Err(CheckRawdataExistence(o, fs).error)
    ensures (CheckRawdataExistence(o, fs).Ok? && CheckRawdataType(o).Err?) ==> r == Err(CheckRawdataType(o).error)
    ensures r.Ok? ==> CheckRawdataExistence(o, fs).Ok? && CheckRawdataType(o).Ok?
    // so do those of the requirement checks and the output paths, then of the filter
    ensures BasemapPaths(o, fs).Err? ==> r == Err(BasemapPaths(o, fs).error)
    // segment command, the filter exactly for filtered sound data, projector
    ensures r.Ok? ==> (
      var runs := r.value.runs;
      && (|runs| == 2 || |runs| == 3)
      && (|runs| == 3 <==> CheckRawdataType(o).value["rawdata_type"] == Sound && "multi_filter_option" in o))
    ensures r.Ok? ==> BasemapPlanned(o, r.value)
    // the viewers follow the switches as given
    ensures r.Ok? ==> r.value.inspector == MapInspector(o).launch
    ensures r.Ok? ==> r.value.rawcsv == RawCsv(r.value.inspector, o["rawdata"].s)
    ensures r.Ok? ==> r.value.scope == Skipped
    // then the segment command of the prepared extractor; only the filter can fail after it
    ensures FollowsPaths(BasemapPaths(o, fs), o, BaseSegment, if r.Ok? then Ok(r.value.runs[0]) else Err(r.error))
  {
    var seg :- BasemapSegments(o, fs);
    var p := BasemapProjection(o, seg);
    assert p.runs[0] == seg.runs[0];
    assert |p.runs| == 3 <==> CheckRawdataType(o).value["rawdata_type"] == Sound && "multi_filter_option" in o;
    r := Ok(p);
  }

  /** Checking the basemap and settling the addplot output paths changes none
      of the carried keys and keeps every given path. */
  lemma AddplotPathsFrame(st: State)
    requires CheckBasemapExistence(st).Ok?
    requires SetOutputFileForAddplot(CheckBasemapExistence(st).value).Ok?
    ensures var s := SetOutputFileForAddplot(CheckBasemapExistence(st).value).value.opts;
      && Carries(st.opts, s) && SameAt(st.opts, s, "rawdata_type")
      && IsStrOption(s, "base_segment") && IsStrOption(s, "base_xy")
      && ("base_segment" in st.opts ==> s["base_segment"] == st.opts["base_segment"])
      && ("base_xy" in st.opts ==> s["base_xy"] == st.opts["base_xy"])
      && ("add_segment" in st.opts ==> s["add_segment"] == st.opts["add_segment"])
      && ("add_xy" in st.opts ==> s["add_xy"] == st.opts["add_xy"])
  {
    var b := CheckBasemapExistence(st).value.opts;
    var s := SetOutputFileForAddplot(CheckBasemapExistence(st).value).value.opts;
    BasemapDefaultsFrame(st.opts, b);
    AddplotDefaultsFrame(b, s);
    UntouchedTransitive(st.opts, b, s, PathKeys);
    PathFrame(st.opts, s);
  }

  lemma BasemapDefaultsFrame(o: Options, b: Options)
    requires BasemapDefaults(o) == Ok(b)
    ensures Untouched(o, b, PathKeys)
  {
    forall k | k !in PathKeys
      ensures SameAt(o, b, k)
    {
      assert k != "base_segment" && k != "base_xy" && k != "status_mi";
    }
  }

  lemma AddplotDefaultsFrame(b: Options, s: Options)
    requires AddplotDefaults(b) == Ok(s)
    ensures Untouched(b, s, PathKeys)
    ensures "base_segment" in b ==> "base_segment" in s && s["base_segment"] == b["base_segment"]
    ensures "base_xy" in b ==> "base_xy" in s && s["base_xy"] == b["base_xy"]
  {
    forall k | k !in PathKeys
      ensures SameAt(b, s, k)
    {
      assert k != "add_segment" && k != "add_xy" && k != "add_status_mi" && k != "status_ms";
    }
  }

  /** The preparation of `addplot`: the checks and option string, the basemap
      check, and the output paths. */
  function AddplotPaths(o: Options, fs: Fs): (r: Result<(Extractor, State)>)
    ensures CheckRawdataExistence(o, fs).Err? ==> r == Err(CheckRawdataExistence(o, fs).error)
    ensures (CheckRawdataExistence(o, fs).Ok? && CheckRawdataType(o).Err?) ==> r == Err(CheckRawdataType(o).error)
    // then the requirement checks' errors, the basemap check's, and the output-path step's
    ensures PrepareSegments(o, fs).Err? ==> r == Err(PrepareSegments(o, fs).error)
    ensures PrepareSegments(o, fs).Ok? ==> (
      var b := CheckBasemapExistence(PrepareSegments(o, fs).value.state);
      && (b.Err? ==> r == Err(b.error))
      && (b.Ok? && SetOutputFileForAddplot(b.value).Err? ==> r == Err(SetOutputFileForAddplot(b.value).error))
      && (b.Ok? && SetOutputFileForAddplot(b.value).Ok? ==>
            r == Ok((PrepareSegments(o, fs).value, SetOutputFileForAddplot(b.value).value))))
    ensures r.Ok? ==> CheckRawdataExistence(o, fs).Ok? && CheckRawdataType(o).Ok?
    ensures r.Ok? ==> (
      var opts := r.value.1.opts;
      && IsStrOption(opts, "base_segment") && IsStrOption(opts, "base_xy")
      && IsStrOption(opts, "add_segment") && IsStrOption(opts, "add_xy")
      && ("base_segment" in o ==> opts["base_segment"] == o["base_segment"])
      && ("base_xy" in o ==> opts["base_xy"] == o["base_xy"])
      && ("add_segment" in o ==> opts["add_segment"] == o["add_segment"])
      && ("add_xy" in o ==> opts["add_xy"] == o["add_xy"]))
    ensures r.Ok? ==> (Carries(o, r.value.1.opts) && "rawdata_type" in r.value.1.opts
      && r.value.1.opts["rawdata_type"] == CheckRawdataType(o).value["rawdata_type"])
  {
    var ex :- PrepareSegments(o, fs);
    var b :- CheckBasemapExistence(ex.state);
    var s :- SetOutputFileForAddplot(b);
    AddplotPathsFrame(ex.state);
    CarriesTransitive(o, ex.state.opts, s.opts);
    Ok((ex, s))
  }

  /** The first half of `addplot`: preparation, the basemap check, output
      paths, the segment command and the filter when it applies. */
  method AddplotSegments(o: Options, fs: Fs) returns (r: Result<Staged>)
    ensures CheckRawdataExistence(o, fs).Err? ==> r == Err(CheckRawdataExistence(o, fs).error)
    ensures (CheckRawdataExistence(o, fs).Ok? && CheckRawdataType(o).Err?) ==> r == Err(CheckRawdataType(o).error)
    ensures r.Ok? ==> CheckRawdataExistence(o, fs).Ok? && CheckRawdataType(o).Ok?
    // every error of the requirement checks, the basemap check and the output paths surfaces
    ensures AddplotPaths(o, fs).Err? ==> r == Err(AddplotPaths(o, fs).error)
    ensures r.Ok? ==> (|r.value.runs| == 1 || |r.value.runs| == 2)
    ensures r.Ok? ==>
      (|r.value.runs| == 2 <==> CheckRawdataType(o).value["rawdata_type"] == Sound && "multi_filter_option" in o)
    ensures r.Ok? ==> (
      var opts := r.value.state.opts;
      && IsStrOption(opts, "base_segment") && IsStrOption(opts, "base_xy")
      && IsStrOption(opts, "add_segment") && IsStrOption(opts, "add_xy")
      && r.value.runs[0].stdout == opts["add_segment"].s
      && r.value.runs[0].stderr == opts["add_segment"].s + ".log"
      && opts["add_segment"].s in r.value.state.fs.present
      && ("base_segment" in o ==> opts["base_segment"] == o["base_segment"])
      && ("base_xy" in o ==> opts["base_xy"] == o["base_xy"])
      && ("add_segment" in o ==> opts["add_segment"] == o["add_segment"])
      && ("add_xy" in o ==> opts["add_xy"] == o["add_xy"]))
    ensures r.Ok? ==> Carries(o, r.value.state.opts)
    // then the segment command of the prepared extractor; only the filter can fail after it
    ensures FollowsPaths(AddplotPaths(o, fs), o, AddSegment, if r.Ok? then Ok(r.value.runs[0]) else Err(r.error))
  {
    var p :- AddplotPaths(o, fs);
    var (ex, s) := p;
    var raw := s.opts["rawdata"].s;
    var seg :- SegmentStage(s, ex, raw, AddSegment);
    CarriesTransitive(o, s.opts, seg.state.opts);
    r := Ok(seg);
  }

  /** Three words joined by single spaces split back into them. */
  lemma ThreeWords(a: string, b: string, c: string)
    requires IsWord(a) && IsWord(b) && IsWord(c)
    ensures Words(a + " " + b + " " + c) == [a, b, c]
  {
    assert a + " " + b + " " + c == a + " " + (b + " " + c);
    WordsOfJoin(a, b + " " + c);
    WordsOfJoin(b, c);
    WordsOfWord(a);
    WordsOfWord(b);
    WordsOfWord(c);
  }

  /** The viewer switches touch no output path, and the inspector switch
      leaves the monitoring-scope switches alone. */
  lemma ViewersKeepOutputs(o: Options)
    ensures SameOutputs(o, MapInspector(o).opts)
    ensures SameOutputs(MapInspector(o).opts, MonitoringScope(MapInspector(o).opts).opts)
    ensures SameAt(o, MapInspector(o).opts, "monitoring_scope")
    ensures SameAt(o, MapInspector(o).opts, "monitoring_scope_sharable")
  {
    var m := MapInspector(o).opts;
    var t := MonitoringScope(m).opts;
    forall k | k !in SwitchKeys || k == "monitoring_scope" || k == "monitoring_scope_sharable"
      ensures SameAt(o, m, k)
    {
      assert k != "map_inspector" && k != "map_inspector_sharable";
    }
    forall k | k !in SwitchKeys
      ensures SameAt(m, t, k)
    {
      assert k != "monitoring_scope" && k != "monitoring_scope_sharable";
    }
    SwitchFrame(o, m);
    SwitchFrame(m, t);
  }

  /** What `addplot` promises about a plan against the options it was given:
      the new segments come first, written to `add_segment` with the log beside
      them, and the projector over the basemap and the new segments comes last,
      writing `add_xy`; given paths are kept and both outputs exist. */
  predicate AddplotPlanned(o: Options, p: Plan) {
    var opts := p.state.opts;
    && |p.runs| > 0
    && IsStrOption(opts, "base_segment") && IsStrOption(opts, "base_xy") && IsStrOption(opts, "add_segment")
    && (var bs := opts["base_segment"].s; var bxy := opts["base_xy"].s; var adds := opts["add_segment"].s;
      var runs := p.runs;
      var axy := runs[|runs| - 1].stdout;
      && runs[0].stdout == adds && runs[0].stderr == adds + ".log"
      && runs[|runs| - 1] == ProjectorRun(Add, bs + " " + bxy + " " + adds, axy)
      && (IsWord(bs) && IsWord(bxy) && IsWord(adds) ==>
            Words(runs[|runs| - 1].command) == ["toorpia", "-m", "add", bs, bxy, adds])
      && ("base_segment" in o ==> o["base_segment"] == Str(bs))
      && ("base_xy" in o ==> o["base_xy"] == Str(bxy))
      && ("add_segment" in o ==> o["add_segment"] == Str(adds))
      && ("add_xy" in o ==> o["add_xy"] == Str(axy))
      && adds in p.state.fs.present && axy in p.state.fs.present)
  }

  /** The second half of `addplot`: the projector over the basemap and the
      new segments, then the map-inspector and monitoring-scope switches. */
  method AddplotProjection(o: Options, seg: Staged) returns (p: Plan)
    requires IsStrOption(seg.state.opts, "base_segment") && IsStrOption(seg.state.opts, "base_xy")
    requires IsStrOption(seg.state.opts, "add_segment") && IsStrOption(seg.state.opts, "add_xy")
    requires SameSwitches(o, seg.state.opts)
    // what the segment stage promises about the new segments and the given paths
    requires |seg.runs| > 0
    requires var opts := seg.state.opts;
      && seg.runs[0].stdout == opts["add_segment"].s && seg.runs[0].stderr == opts["add_segment"].s + ".log"
      && opts["add_segment"].s in seg.state.fs.present
      && ("base_segment" in o ==> opts["base_segment"] == o["base_segment"])
      && ("base_xy" in o ==> opts["base_xy"] == o["base_xy"])
      && ("add_segment" in o ==> opts["add_segment"] == o["add_segment"])
      && ("add_xy" in o ==> opts["add_xy"] == o["add_xy"])
    ensures var opts := seg.state.opts;
      var bs := opts["base_segment"].s; var bxy := opts["base_xy"].s; var adds := opts["add_segment"].s;
      var axy := opts["add_xy"].s;
      && p.runs == seg.runs + [ProjectorRun(Add, bs + " " + bxy + " " + adds, axy)]
      && (IsWord(bs) && IsWord(bxy) && IsWord(adds) ==>
            Words(p.runs[|p.runs| - 1].command) == ["toorpia", "-m", "add", bs, bxy, adds])
      && seg.state.fs.present + {axy} <= p.state.fs.present
    ensures SameOutputs(seg.state.opts, p.state.opts)
    ensures |p.runs| == |seg.runs| + 1 && p.runs[0] == seg.runs[0] && AddplotPlanned(o, p)
    ensures p.inspector == MapInspector(o).launch && p.rawcsv == None
    ensures p.scope == MonitoringScope(o).launch
  {
    var opts := seg.state.opts;
    var bs := opts["base_segment"].s;
    var bxy := opts["base_xy"].s;
    var adds := opts["add_segment"].s;
    var axy := opts["add_xy"].s;
    var proj := ProjectorRun(Add, bs + " " + bxy + " " + adds, axy);
    if IsWord(bs) && IsWord(bxy) && IsWord(adds) {
      ThreeWords(bs, bxy, adds);
      assert ["toorpia", "-m", "add"] + [bs, bxy, adds] == ["toorpia", "-m", "add", bs, bxy, adds];
    }
    var mi := MapInspector(opts);
    var ms := MonitoringScope(mi.opts);
    MapInspectorReadsSwitches(o, opts);
    ViewersKeepOutputs(opts);
    MonitoringScopeReadsSwitches(o, mi.opts);
    p := Plan(State(ms.opts, Run(seg.state.fs, proj)), seg.runs + [proj], mi.launch, None, ms.launch);
  }

  /** `addplot`: the segment command for the new data (and the filter for
      filtered sound data), then `toorpia -m add <base_segment> <base_xy>
      <add_segment>` writing `add_xy`, then the map-inspector and
      monitoring-scope switches.  No raw csv is handed to the inspector. */
  method Addplot(o: Options, fs: Fs) returns (r: Result<Plan>)
    ensures CheckRawdataExistence(o, fs).Err? ==> r == Err(CheckRawdataExistence(o, fs).error)
    ensures (CheckRawdataExistence(o, fs).Ok? && CheckRawdataType(o).Err?) ==> r == Err(CheckRawdataType(o).error)
    ensures r.Ok? ==> CheckRawdataExistence(o, fs).Ok? && CheckRawdataType(o).Ok?
    // so do those of the requirement checks, the basemap check and the output paths, then of the filter
    ensures AddplotPaths(o, fs).Err? ==> r == Err(AddplotPaths(o, fs).error)
    ensures r.Ok? ==> (
      var runs := r.value.runs;
      && (|runs| == 2 || |runs| == 3)
      && (|runs| == 3 <==> CheckRawdataType(o).value["rawdata_type"] == Sound && "multi_filter_option" in o))
    ensures r.Ok? ==> AddplotPlanned(o, r.value)
    ensures r.Ok? ==> r.value.inspector == MapInspector(o).launch
    ensures r.Ok? ==> r.value.rawcsv == None
    ensures r.Ok? ==> r.value.scope == MonitoringScope(o).launch
    // then the segment command of the prepared extractor; only the filter can fail after it
    ensures FollowsPaths(AddplotPaths(o, fs), o, AddSegment, if r.Ok? then Ok(r.value.runs[0]) else Err(r.error))
  {
    var seg :- AddplotSegments(o, fs);
    var p := AddplotProjection(o, seg);
    assert |p.runs| == 3 <==> CheckRawdataType(o).value["rawdata_type"] == Sound && "multi_filter_option" in o;
    r := Ok(p);
  }
}

=== FILE: remote.dfy ===
/** The remote copy of the resolver and builder, remote/remote_utils.py: a
    toolkit that validates its connection settings once, a data-type check
    with its own inference rules, and the three shell command lines each entry
    point sends over ssh (build the segments, run the projector, read the
    coordinates back).  The ssh transport itself is not modelled; the commands
    are the exact strings handed to it. */
module Remote {
  import opened Text
  import opened Config
  import opened Resolver
  import opened Builder
  import Pipeline

  /** Python's `v == '' or v == None`. */
  predicate IsEmptyValue(v: Value) {
    v == Str("") || v == NoneValue
  }

  /** `params.get(key) is None or params[key] == '' or params[key] == None`,
      and equally `not (params.get(key) != None and ...)`. */
  predicate IsBlank(p: Options, key: string) {
    key !in p || IsEmptyValue(p[key])
  }

  /** `path[0] == '/'` on a non-empty string. */
  predicate IsAbsolute(path: string) {
    |path| > 0 && path[0] == '/'
  }

  // ---------------------------------------------------------------------------
  // The UID check of the constructor

  /** A numeric user id: one or more ASCII digits and nothing else. */
  predicate IsUid(s: string) {
    |s| > 0 && AllDigits(s)
  }

  /** `s` without one final newline, if it has one. */
  function DropFinalNewline(s: string): (r: string)
    ensures |r| <= |s| && r == s[..|r|]
    ensures |r| < |s| <==> |s| > 0 && s[|s| - 1] == '\n'
  {
    if |s| > 0 && s[|s| - 1] == '\n' then s[..|s| - 1] else s
  }

  /** `re.match(r'^[0-9]+$', s)` as written: `$` also matches just before a
      final newline, so one trailing newline is let through. */
  predicate UidMatchesAsWritten(s: string) {
    IsUid(DropFinalNewline(s))
  }

  /** The check as the constructor performs it. */
  function CheckUidAsWritten(user: Value): (r: Result<string>)
    ensures r.Ok? <==> user.Str? && user.s != "" && UidMatchesAsWritten(user.s)
    ensures r.Ok? ==> r.value == user.s
    ensures IsEmptyValue(user) ==> r == Err(AnalysisUserMissing)
    ensures !IsEmptyValue(user) && !user.Str? ==> r == Err(NotAString("analysis_user"))
    ensures user.Str? && user.s != "" && !UidMatchesAsWritten(user.s) ==> r == Err(AnalysisUserNotUid)
  {
    if IsEmptyValue(user) then Err(AnalysisUserMissing)
    else if !user.Str? then Err(NotAString("analysis_user"))
    else if !UidMatchesAsWritten(user.s) then Err(AnalysisUserNotUid)
    else Ok(user.s)
  }

  /** The as-written check accepts a user id with a trailing newline, which is
      not a single token: the newline ends the remote shell command in the
      middle of the `docker compose exec` line. */
  lemma NewlineUidAcceptedAsWritten()
    ensures CheckUidAsWritten(Str("1000\n")) == Ok("1000\n")
    ensures !IsUid("1000\n") && !IsWord("1000\n")
  {
    var s := "1000\n";
    assert DropFinalNewline(s) == "1000";
    assert !IsDigit(s[4]);
    assert IsSpace(s[4]);
  }

  /** The check as intended: the whole string is a UID. */
  function CheckUid(user: Value): (r: Result<string>)
    ensures r.Ok? <==> user.Str? && IsUid(user.s)
    ensures r.Ok? ==> r.value == user.s && IsWord(r.value)
    ensures IsEmptyValue(user) ==> r == Err(AnalysisUserMissing)
    ensures !IsEmptyValue(user) && !user.Str? ==> r == Err(NotAString("analysis_user"))
    ensures user.Str? && user.s != "" && !IsUid(user.s) ==> r == Err(AnalysisUserNotUid)
  {
    if IsEmptyValue(user) then Err(AnalysisUserMissing)
    else if !user.Str? then Err(NotAString("analysis_user"))
    else if !IsUid(user.s) then Err(AnalysisUserNotUid)
    else (UidIsWord(user.s); Ok(user.s))
  }

  lemma UidIsWord(s: string)
    requires IsUid(s)
    ensures IsWord(s)
  {
    forall i | 0 <= i < |s|
      ensures !IsSpace(s[i])
    {
      assert IsDigit(s[i]);
    }
  }

  /** The two checks differ exactly on a UID followed by one newline. */
  lemma {:induction false} UidChecksDiffer(user: Value)
    ensures CheckUid(user) != CheckUidAsWritten(user) <==> IsNewlineUid(user)
  {
    if user.Str? && |user.s| > 0 && user.s[|user.s| - 1] == '\n' {
      assert !IsDigit(user.s[|user.s| - 1]);
    }
  }

  // ---------------------------------------------------------------------------
  // The toolkit (constructor)

  /** The settings a toolkit keeps.  `user` and `workingDir` are interpolated
      into every remote command. */
  datatype Toolkit = Toolkit(sshInfo: string, serviceDir: string, compose: string, user: string, workingDir: string) {
    /** `cd <service dir>; <compose> exec -T -u <uid> -w <working dir> toorpia`. */
    function Prefix(): string {
      "cd " + serviceDir + "; " + compose + " exec -T -u " + user + " -w " + workingDir + " toorpia"
    }

    predicate Valid() {
      IsAbsolute(serviceDir) && IsAbsolute(workingDir) && IsUid(user)
    }
  }

  /** The projector's path inside the container. */
  const ToorpiaCmd: string := "/usr/local/bin/toorpia"

  const DefaultCompose: string := "docker compose"

  /** `toorpia_remote_toolkit(...)`.  The two directories must be absolute and
      are checked in that order, `docker compose` stands in for an empty
      compose command, and the analysis user must be a UID. */
  function NewToolkit(sshUser: string, sshHost: string, serviceDir: string, compose: Value, user: Value, workingDir: string)
    : (r: Result<Toolkit>)
    ensures r.Ok? <==> IsAbsolute(serviceDir) && IsAbsolute(workingDir) && user.Str? && IsUid(user.s)
    ensures r.Ok? ==> r.value.Valid()
    // the errors, in the order the checks run
    ensures serviceDir == [] ==> r == Err(IndexOutOfRange("toorpia_service_dir"))
    ensures serviceDir != [] && serviceDir[0] != '/' ==> r == Err(ServiceDirNotAbsolute)
    ensures IsAbsolute(serviceDir) && workingDir == [] ==> r == Err(IndexOutOfRange("working_dir"))
    ensures IsAbsolute(serviceDir) && workingDir != [] && workingDir[0] != '/' ==> r == Err(WorkingDirNotAbsolute)
    ensures IsAbsolute(serviceDir) && IsAbsolute(workingDir) && r.Err? ==> r.error == CheckUid(user).error
    // what is kept
    ensures r.Ok? ==> r.value.serviceDir == serviceDir && r.value.workingDir == workingDir && r.value.user == user.s
    ensures r.Ok? ==> r.value.sshInfo == sshUser + "@" + sshHost
    ensures r.Ok? ==> (r.value.compose == DefaultCompose <==> IsEmptyValue(compose) || Render(compose) == DefaultCompose)
    ensures r.Ok? && !IsEmptyValue(compose) ==> r.value.compose == Render(compose)
  {
    if serviceDir == [] then Err(IndexOutOfRange("toorpia_service_dir"))
    else if serviceDir[0] != '/' then Err(ServiceDirNotAbsolute)
    else
      var cmd := if IsEmptyValue(compose) then DefaultCompose else Render(compose);
      if workingDir == [] then Err(IndexOutOfRange("working_dir"))
      else if workingDir[0] != '/' then Err(WorkingDirNotAbsolute)
      else
        var uid :- CheckUid(user);
        Ok(Toolkit(sshUser + "@" + sshHost, serviceDir, cmd, uid, workingDir))
  }

  /** A UID followed by one newline, which only the written UID check accepts. */
  predicate IsNewlineUid(user: Value) {
    user.Str? && |user.s| > 1 && user.s[|user.s| - 1] == '\n' && IsUid(user.s[..|user.s| - 1])
  }

  /** The constructor as written, with the UID check as written.  It agrees
      with the corrected constructor on every input but one family: with both
      directories absolute, a UID followed by one newline is accepted and kept,
      where the corrected constructor refuses it. */
  function NewToolkitAsWritten(sshUser: string, sshHost: string, serviceDir: string, compose: Value, user: Value, workingDir: string)
    : (r: Result<Toolkit>)
    ensures r != NewToolkit(sshUser, sshHost, serviceDir, compose, user, workingDir) ==> IsNewlineUid(user)
    ensures IsAbsolute(serviceDir) && IsAbsolute(workingDir) && IsNewlineUid(user) ==>
      r.Ok? && r.value.user == user.s && NewToolkit(sshUser, sshHost, serviceDir, compose, user, workingDir).Err?
  {
    UidChecksDiffer(user);
    if serviceDir == [] then Err(IndexOutOfRange("toorpia_service_dir"))
    else if serviceDir[0] != '/' then Err(ServiceDirNotAbsolute)
    else
      var cmd := if IsEmptyValue(compose) then DefaultCompose else Render(compose);
      if workingDir == [] then Err(IndexOutOfRange("working_dir"))
      else if workingDir[0] != '/' then Err(WorkingDirNotAbsolute)
      else
        var uid :- CheckUidAsWritten(user);
        Ok(Toolkit(sshUser + "@" + sshHost, serviceDir, cmd, uid, workingDir))
  }

  /** The container command runs as the UID in the working directory: when the
      service and working directories are single tokens, the prefix splits into
      `cd`, the directory (with the `;` that ends the `cd`), the compose
      command's own tokens, and the `exec` arguments. */
  lemma PrefixWords(tk: Toolkit)
    requires tk.Valid() && IsWord(tk.serviceDir) && IsWord(tk.workingDir)
    ensures Words(tk.Prefix()) ==
      ["cd", tk.serviceDir + ";"] + Words(tk.compose) + ["exec", "-T", "-u", tk.user, "-w", tk.workingDir, "toorpia"]
  {
    UidIsWord(tk.user);
    ExecWordsAreWords();
    var dir := tk.serviceDir + ";";
    assert IsWord(dir) by {
      assert forall i :: 0 <= i < |tk.serviceDir| ==> dir[i] == tk.serviceDir[i];
    }
    PrefixSpaced(tk);
    SpacedWords("cd", dir, tk.compose, "exec", "-T", "-u", tk.user, "-w", tk.workingDir, "toorpia");
  }

  /** The prefix's shape with every fixed token a parameter. */
  lemma SpacedWords(a: string, b: string, c: string, d: string, e: string, f: string, g: string,
                    h: string, i: string, j: string)
    requires IsWord(a) && IsWord(b) && IsWord(d) && IsWord(e) && IsWord(f) && IsWord(g)
    requires IsWord(h) && IsWord(i) && IsWord(j)
    ensures Words(a + " " + b + " " + c + " " + d + " " + e + " " + f + " " + g + " " + h + " " + i + " " + j)
      == [a, b] + Words(c) + [d, e, f, g, h, i, j]
  {
    WordsOfWord(a);
    Snoc(a, b);
    var s1 := a + " " + b;
    WordsOfJoin(s1, c);
    var s2 := s1 + " " + c;
    var p := [a, b] + Words(c);
    assert Words(s2) == p;
    FourMore(s2, d, e, f, g);
    var s6 := s2 + " " + d + " " + e + " " + f + " " + g;
    ThreeMore(s6, h, i, j);
    assert p + [d, e, f, g] + [h, i, j] == p + [d, e, f, g, h, i, j];
  }

  lemma FourMore(acc: string, a: string, b: string, c: string, d: string)
    requires IsWord(a) && IsWord(b) && IsWord(c) && IsWord(d)
    ensures Words(acc + " " + a + " " + b + " " + c + " " + d) == Words(acc) + [a, b, c, d]
  {
    var w := Words(acc);
    Snoc(acc, a);
    Snoc(acc + " " + a, b);
    assert Words(acc + " " + a + " " + b) == w + [a, b];
    Snoc(acc + " " + a + " " + b, c);
    assert Words(acc + " " + a + " " + b + " " + c) == w + [a, b, c];
    Snoc(acc + " " + a + " " + b + " " + c, d);
  }

  lemma ThreeMore(acc: string, a: string, b: string, c: string)
    requires IsWord(a) && IsWord(b) && IsWord(c)
    ensures Words(acc + " " + a + " " + b + " " + c) == Words(acc) + [a, b, c]
  {
    var w := Words(acc);
    Snoc(acc, a);
    Snoc(acc + " " + a, b);
    assert Words(acc + " " + a + " " + b) == w + [a, b];
    Snoc(acc + " " + a + " " + b, c);
  }

  /** The prefix is its pieces joined by single spaces. */
  lemma PrefixSpaced(tk: Toolkit)
    ensures tk.Prefix()
      == "cd" + " " + (tk.serviceDir + ";") + " " + tk.compose + " " + "exec" + " " + "-T" + " " + "-u" + " " + tk.user
         + " " + "-w" + " " + tk.workingDir + " " + "toorpia"
  {
  }

  /** One more token after a space. */
  lemma Snoc(acc: string, w: string)
    requires IsWord(w)
    ensures Words(acc + " " + w) == Words(acc) + [w]
  {
    WordsOfJoin(acc, w);
    WordsOfWord(w);
  }

  lemma ExecWordsAreWords()
    ensures IsWord("exec") && IsWord("-T") && IsWord("-u") && IsWord("-w") && IsWord("toorpia") && IsWord("cd")
  {
  }

  // ---------------------------------------------------------------------------
  // check_data_type

  /** One character of the input matches one pattern character under
      `re.IGNORECASE`: itself, its ASCII capital, and for `s` also the long s
      (U+017F), which case-folds to it. */
  predicate FoldMatch(c: char, p: char) {
    || c == p
    || ('a' <= p <= 'z' && c as int == p as int - 32)
    || (p == 's' && c == 'ſ')
  }

  /** `s` ends with `pat`, compared case-insensitively. */
  predicate EndsWithFolded(s: string, pat: string) {
    |pat| <= |s| && forall i :: 0 <= i < |pat| ==> FoldMatch(s[|s| - |pat| + i], pat[i])
  }

  predicate NoNewline(s: string) {
    forall i :: 0 <= i < |s| ==> s[i] != '\n'
  }

  /** `re.match(r'^.*\.<ext>(\.gz)?$', s, re.IGNORECASE)`, with `ext` the
      dotted extension and `gz` the same followed by `.gz`: `.` does not cross a
      newline and `$` may stop before a final one. */
  predicate MatchesExtension(s: string, ext: string, gz: string) {
    var body := DropFinalNewline(s);
    NoNewline(body) && (EndsWithFolded(body, ext) || EndsWithFolded(body, gz))
  }

  predicate IsWavFile(s: string) {
    MatchesExtension(s, ".wav", ".wav.gz")
  }

  predicate IsCsvFile(s: string) {
    MatchesExtension(s, ".csv", ".csv.gz")
  }

  /** `rawdata` is a string the remote side accepts. */
  predicate IsRecognized(p: Options) {
    "rawdata" in p && p["rawdata"].Str? && (IsWavFile(p["rawdata"].s) || IsCsvFile(p["rawdata"].s))
  }

  /** `check_data_type(params)`: the raw data must be named and look like a wav
      or a csv file; a blank type is inferred (wav is sound; csv is table when a
      type-weight file is named, else sound); the type must end up `sound` or
      `table`.  An explicit type is never overridden. */
  function CheckDataType(p: Options): (r: Result<Options>)
    ensures IsBlank(p, "rawdata") ==> r == Err(RawdataMustBeSpecified)
    ensures !IsBlank(p, "rawdata") && !p["rawdata"].Str? ==> r == Err(NotAString("rawdata"))
    ensures (!IsBlank(p, "rawdata") && p["rawdata"].Str?
             && !IsWavFile(p["rawdata"].s) && !IsCsvFile(p["rawdata"].s)) ==> r == Err(RawdataNotWavOrCsv)
    ensures IsRecognized(p) && !IsBlank(p, "rawdata_type") && !IsKnownType(p["rawdata_type"]) ==>
      r == Err(TypeNotSoundOrTable)
    ensures r.Ok? <==> IsRecognized(p) && (IsBlank(p, "rawdata_type") || IsKnownType(p["rawdata_type"]))
    ensures r.Ok? ==> "rawdata_type" in r.value && IsKnownType(r.value["rawdata_type"])
    // only the type may change, and only when it was blank
    ensures r.Ok? && !IsBlank(p, "rawdata_type") ==> r.value == p
    ensures r.Ok? ==> r.value == p["rawdata_type" := r.value["rawdata_type"]]
    // the inference
    ensures r.Ok? && IsBlank(p, "rawdata_type") && IsWavFile(p["rawdata"].s) ==> r.value["rawdata_type"] == Sound
    ensures r.Ok? && IsBlank(p, "rawdata_type") && !IsWavFile(p["rawdata"].s) ==>
      (r.value["rawdata_type"] == Table <==> !IsBlank(p, "type_weight_csv"))
  {
    if IsBlank(p, "rawdata") then Err(RawdataMustBeSpecified)
    else if !p["rawdata"].Str? then Err(NotAString("rawdata"))
    else
      var raw := p["rawdata"].s;
      if !IsWavFile(raw) && !IsCsvFile(raw) then Err(RawdataNotWavOrCsv)
      else
        var q := if !IsBlank(p, "rawdata_type") then p
                 else if IsWavFile(raw) then p["rawdata_type" := Sound]
                 else if IsBlank(p, "type_weight_csv") then p["rawdata_type" := Sound]
                 else p["rawdata_type" := Table];
        if !IsKnownType(q["rawdata_type"]) then Err(TypeNotSoundOrTable)
        else Ok(q)
  }

  /** Which extractor the checked parameters select: `mkcsvseg` exactly when
      table was declared, or nothing was declared for a csv file and a
      type-weight file is named. */
  lemma ExtractorChoice(p: Options)
    requires CheckDataType(p).Ok?
    ensures var q := CheckDataType(p).value;
      Typed(q) && (Extractor(q) == MkCsvSeg <==>
        (!IsBlank(p, "rawdata_type") && p["rawdata_type"] == Table)
        || (IsBlank(p, "rawdata_type") && !IsWavFile(p["rawdata"].s) && !IsBlank(p, "type_weight_csv")))
  {
    assert MkFftSeg != MkCsvSeg by {
      assert MkFftSeg[17] != MkCsvSeg[17];
    }
  }

  /** Checking checked parameters again changes nothing. */
  lemma CheckDataTypeIdempotent(p: Options)
    requires CheckDataType(p).Ok?
    ensures CheckDataType(CheckDataType(p).value) == CheckDataType(p)
  {
    var q := CheckDataType(p).value;
    assert q["rawdata"] == p["rawdata"];
  }

  /** No name is both: the wav and csv patterns exclude each other. */
  lemma WavAndCsvExclusive(s: string)
    ensures !(IsWavFile(s) && IsCsvFile(s))
  {
    var b := DropFinalNewline(s);
    SuffixLetters(b);
  }

  /** The letters each suffix pins down: the last letter, and the first letter
      of the extension. */
  lemma SuffixLetters(b: string)
    ensures EndsWithFolded(b, ".wav") ==> FoldMatch(b[|b| - 1], 'v') && FoldMatch(b[|b| - 3], 'w')
    ensures EndsWithFolded(b, ".csv") ==> FoldMatch(b[|b| - 1], 'v') && FoldMatch(b[|b| - 3], 'c')
    ensures EndsWithFolded(b, ".wav.gz") ==> FoldMatch(b[|b| - 1], 'z') && FoldMatch(b[|b| - 6], 'w')
    ensures EndsWithFolded(b, ".csv.gz") ==> FoldMatch(b[|b| - 1], 'z') && FoldMatch(b[|b| - 6], 'c')
  {
    var n := |b|;
    if EndsWithFolded(b, ".wav") {
      assert FoldMatch(b[n - 4 + 3], ".wav"[3]) && FoldMatch(b[n - 4 + 1], ".wav"[1]);
    }
    if EndsWithFolded(b, ".csv") {
      assert FoldMatch(b[n - 4 + 3], ".csv"[3]) && FoldMatch(b[n - 4 + 1], ".csv"[1]);
    }
    if EndsWithFolded(b, ".wav.gz") {
      assert FoldMatch(b[n - 7 + 6], ".wav.gz"[6]) && FoldMatch(b[n - 7 + 1], ".wav.gz"[1]);
    }
    if EndsWithFolded(b, ".csv.gz") {
      assert FoldMatch(b[n - 7 + 6], ".csv.gz"[6]) && FoldMatch(b[n - 7 + 1], ".csv.gz"[1]);
    }
  }

  // ---------------------------------------------------------------------------
  // The command lines of create_basemap and addplot

  /** The arguments a set option contributes: its flag, then its value. */
  function ArgsIfSet(p: Options, key: string, flag: string): seq<string> {
    if IsBlank(p, key) then [] else [flag, Render(p[key])]
  }

  /** The option is blank, or renders as a single token. */
  predicate SetAsWord(p: Options, key: string) {
    IsBlank(p, key) || IsWord(Render(p[key]))
  }

  /** `if <key is set>: option_str += f' <flag> {params[key]}'`. */
  function FlagIfSet(acc: string, p: Options, key: string, flag: string): (r: string)
    ensures acc <= r
    ensures r == acc <==> IsBlank(p, key)
    ensures IsWord(flag) && SetAsWord(p, key) ==> Words(r) == Words(acc) + ArgsIfSet(p, key, flag)
  {
    if IsBlank(p, key) then acc else WithFlag(acc, flag, Render(p[key]))
  }

  lemma FlagNamesAreWords()
    ensures IsWord("-wl") && IsWord("-sr") && IsWord("-o") && IsWord(">") && IsWord("2>") && IsWord("cat") && IsWord("-m")
  {
  }

  /** Parameters whose type has been checked. */
  predicate Typed(p: Options) {
    "rawdata_type" in p && IsKnownType(p["rawdata_type"])
  }

  const MkFftSeg: string := "/usr/local/bin/mkfftseg"
  const MkCsvSeg: string := "/usr/local/bin/mkcsvseg"

  /** The segment extractor: `mkfftseg` for sound, `mkcsvseg` for table data. */
  function Extractor(p: Options): string
    requires Typed(p)
  {
    if p["rawdata_type"] == Sound then MkFftSeg else MkCsvSeg
  }

  /** The extractor arguments the remote side passes on: window length and
      sampling rate for sound, the type-weight file for table data, each only
      when set; nothing else, and no defaults. */
  function SegmentArgs(p: Options): seq<string>
    requires Typed(p)
  {
    if p["rawdata_type"] == Sound then ArgsIfSet(p, "window_length", "-wl") + ArgsIfSet(p, "sampling_rate", "-sr")
    else ArgsIfSet(p, "type_weight_csv", "-o")
  }

  /** Every option value the remote option string may carry is a token. */
  predicate OptionsAreWords(p: Options) {
    SetAsWord(p, "window_length") && SetAsWord(p, "sampling_rate") && SetAsWord(p, "type_weight_csv")
  }

  /** `option_str` as create_basemap and addplot build it. */
  function OptionStr(p: Options): (r: string)
    requires Typed(p)
    ensures r == "" <==> SegmentArgs(p) == []
    ensures OptionsAreWords(p) ==> Words(r) == SegmentArgs(p)
  {
    FlagNamesAreWords();
    if p["rawdata_type"] == Sound then
      var wl := FlagIfSet("", p, "window_length", "-wl");
      FlagIfSet(wl, p, "sampling_rate", "-sr")
    else FlagIfSet("", p, "type_weight_csv", "-o")
  }

  /** The files under the working directory each entry point writes. */
  function SegmentsCsv(m: Pipeline.Mode, wd: string): string {
    if m.Base? then wd + "/base_segments.csv" else wd + "/add_segments.csv"
  }

  function SegmentsLog(m: Pipeline.Mode, wd: string): string {
    if m.Base? then wd + "/base_segments.log" else wd + "/add_segments.log"
  }

  function XyDat(m: Pipeline.Mode, wd: string): string {
    if m.Base? then wd + "/base-xy.dat" else wd + "/add-xy.dat"
  }

  function XyLog(m: Pipeline.Mode, wd: string): string {
    if m.Base? then wd + "/base-xy.log" else wd + "/add-xy.log"
  }

  /** A file name under a directory that is a token is a token. */
  lemma FilesAreWords(m: Pipeline.Mode, wd: string)
    requires IsWord(wd)
    ensures IsWord(SegmentsCsv(m, wd)) && IsWord(SegmentsLog(m, wd)) && IsWord(XyDat(m, wd)) && IsWord(XyLog(m, wd))
  {
    FileSuffixesAreWords();
    if m.Base? {
      WordConcat(wd, "/base_segments.csv");
      WordConcat(wd, "/base_segments.log");
      WordConcat(wd, "/base-xy.dat");
      WordConcat(wd, "/base-xy.log");
    } else {
      WordConcat(wd, "/add_segments.csv");
      WordConcat(wd, "/add_segments.log");
      WordConcat(wd, "/add-xy.dat");
      WordConcat(wd, "/add-xy.log");
    }
  }

  // Proof helpers for the word lemmas: the fixed file names, the extractor names
  // and the spacing of the command pieces.

  /** The file names under the working directory contain no whitespace. */
  lemma FileSuffixesAreWords()
    ensures IsWord("/base_segments.csv") && IsWord("/base_segments.log") && IsWord("/base-xy.dat") && IsWord("/base-xy.log")
    ensures IsWord("/add_segments.csv") && IsWord("/add_segments.log") && IsWord("/add-xy.dat") && IsWord("/add-xy.log")
  {
    BaseSuffixesAreWords();
    AddSuffixesAreWords();
  }

  /** The basemap file names contain no whitespace. */
  lemma BaseSuffixesAreWords()
    ensures IsWord("/base_segments.csv") && IsWord("/base_segments.log") && IsWord("/base-xy.dat") && IsWord("/base-xy.log")
  {
  }

  /** The addplot file names contain no whitespace. */
  lemma AddSuffixesAreWords()
    ensures IsWord("/add_segments.csv") && IsWord("/add_segments.log") && IsWord("/add-xy.dat") && IsWord("/add-xy.log")
  {
  }

  /** Two whitespace-free strings glue into one. */
  lemma WordConcat(a: string, b: string)
    requires IsWord(a) && IsWord(b)
    ensures IsWord(a + b)
  {
    assert forall i :: 0 <= i < |a + b| ==> (a + b)[i] == if i < |a| then a[i] else b[i - |a|];
  }

  /** `cmd  > out 2> log` (two spaces, as the segment command has them). */
  lemma RedirectWords(cmd: string, out: string, log: string)
    requires IsWord(out) && IsWord(log)
    ensures Words(cmd + "  > " + out + " 2> " + log) == Words(cmd) + [">", out, "2>", log]
    ensures Words(cmd + " > " + out + " 2> " + log) == Words(cmd) + [">", out, "2>", log]
  {
    FlagNamesAreWords();
    RedirectSpaced(cmd, out, log);
    WordsOfJoin(cmd, "");
    FourMore(cmd + " " + "", ">", out, "2>", log);
    FourMore(cmd, ">", out, "2>", log);
  }

  /** The redirections are the pieces joined by single spaces. */
  lemma RedirectSpaced(cmd: string, out: string, log: string)
    ensures cmd + "  > " + out + " 2> " + log == cmd + " " + "" + " " + ">" + " " + out + " " + "2>" + " " + log
    ensures cmd + " > " + out + " 2> " + log == cmd + " " + ">" + " " + out + " " + "2>" + " " + log
  {
  }

  /** The segment command: `<prefix> <extractor> <options> <rawdata>  > <csv> 2> <log>`. */
  function SegmentCommand(tk: Toolkit, p: Options, m: Pipeline.Mode): (c: string)
    requires Typed(p) && "rawdata" in p && p["rawdata"].Str?
    ensures IsWord(tk.workingDir) && OptionsAreWords(p) ==>
      Words(c) == Words(tk.Prefix()) + [Extractor(p)] + SegmentArgs(p) + Words(p["rawdata"].s)
        + [">", SegmentsCsv(m, tk.workingDir), "2>", SegmentsLog(m, tk.workingDir)]
  {
    if IsWord(tk.workingDir) && OptionsAreWords(p) then
      SegmentWords(tk, p, m);
      SegmentLine(tk, p, m)
    else SegmentLine(tk, p, m)
  }

  function SegmentLine(tk: Toolkit, p: Options, m: Pipeline.Mode): string
    requires Typed(p) && "rawdata" in p && p["rawdata"].Str?
  {
    tk.Prefix() + " " + Extractor(p) + " " + OptionStr(p) + " " + p["rawdata"].s
      + "  > " + SegmentsCsv(m, tk.workingDir) + " 2> " + SegmentsLog(m, tk.workingDir)
  }

  lemma SegmentWords(tk: Toolkit, p: Options, m: Pipeline.Mode)
    requires Typed(p) && "rawdata" in p && p["rawdata"].Str?
    requires IsWord(tk.workingDir) && OptionsAreWords(p)
    ensures Words(SegmentLine(tk, p, m))
        == Words(tk.Prefix()) + [Extractor(p)] + SegmentArgs(p) + Words(p["rawdata"].s)
           + [">", SegmentsCsv(m, tk.workingDir), "2>", SegmentsLog(m, tk.workingDir)]
  {
    var wd := tk.workingDir;
    ExtractorsAreWords();
    FilesAreWords(m, wd);
    ToolLineWords(tk.Prefix(), Extractor(p), OptionStr(p), p["rawdata"].s);
    var line := tk.Prefix() + " " + Extractor(p) + " " + OptionStr(p) + " " + p["rawdata"].s;
    RedirectWords(line, SegmentsCsv(m, wd), SegmentsLog(m, wd));
  }

  /** The extractor names contain no whitespace. */
  lemma ExtractorsAreWords()
    ensures IsWord(MkFftSeg) && IsWord(MkCsvSeg)
  {
  }

  /** The projector path contains no whitespace. */
  lemma ProjectorIsWord()
    ensures IsWord(ToorpiaCmd)
  {
  }

  lemma ToolLineWords(prefix: string, prog: string, flags: string, raw: string)
    requires IsWord(prog)
    ensures Words(prefix + " " + prog + " " + flags + " " + raw) == Words(prefix) + [prog] + Words(flags) + Words(raw)
  {
    Snoc(prefix, prog);
    WordsOfJoin(prefix + " " + prog, flags);
    WordsOfJoin(prefix + " " + prog + " " + flags, raw);
  }

  /** The segment files the projector reads: the new segments alone for a
      base map; the base segments, the base coordinates and the new segments
      for an added plot. */
  function InputFiles(m: Pipeline.Mode, wd: string): seq<string> {
    if m.Base? then [SegmentsCsv(Pipeline.Base, wd)]
    else [SegmentsCsv(Pipeline.Base, wd), XyDat(Pipeline.Base, wd), SegmentsCsv(Pipeline.Add, wd)]
  }

  /** The projector command: `<prefix> toorpia -m <mode> <inputs> > <xy> 2> <log>`. */
  function ProjectorCommand(tk: Toolkit, m: Pipeline.Mode): (c: string)
    ensures IsWord(tk.workingDir) ==>
      Words(c) == Words(tk.Prefix()) + [ToorpiaCmd, "-m", m.Name()] + InputFiles(m, tk.workingDir)
        + [">", XyDat(m, tk.workingDir), "2>", XyLog(m, tk.workingDir)]
  {
    if IsWord(tk.workingDir) then
      ProjectorWords(tk, m);
      ProjectorLine(tk, m)
    else ProjectorLine(tk, m)
  }

  function ProjectorInputs(m: Pipeline.Mode, wd: string): string {
    if m.Base? then SegmentsCsv(Pipeline.Base, wd)
    else SegmentsCsv(Pipeline.Base, wd) + " " + XyDat(Pipeline.Base, wd) + " " + SegmentsCsv(Pipeline.Add, wd)
  }

  function ProjectorLine(tk: Toolkit, m: Pipeline.Mode): string {
    tk.Prefix() + " " + ToorpiaCmd + " -m " + m.Name() + " " + ProjectorInputs(m, tk.workingDir)
      + " > " + XyDat(m, tk.workingDir) + " 2> " + XyLog(m, tk.workingDir)
  }

  lemma ProjectorWords(tk: Toolkit, m: Pipeline.Mode)
    requires IsWord(tk.workingDir)
    ensures Words(ProjectorLine(tk, m)) == Words(tk.Prefix()) + [ToorpiaCmd, "-m", m.Name()] + InputFiles(m, tk.workingDir)
      + [">", XyDat(m, tk.workingDir), "2>", XyLog(m, tk.workingDir)]
  {
    var wd := tk.workingDir;
    var head := tk.Prefix() + " " + ToorpiaCmd + " -m " + m.Name();
    ModeSpaced(tk.Prefix(), ToorpiaCmd, m.Name());
    ProjectorIsWord();
    FlagNamesAreWords();
    Pipeline.ProjectorNamesAreWords();
    ThreeMore(tk.Prefix(), ToorpiaCmd, "-m", m.Name());
    InputWords(m, wd);
    var line := head + " " + ProjectorInputs(m, wd);
    WordsOfJoin(head, ProjectorInputs(m, wd));
    FilesAreWords(m, wd);
    RedirectWords(line, XyDat(m, wd), XyLog(m, wd));
  }

  lemma ModeSpaced(prefix: string, prog: string, mode: string)
    ensures prefix + " " + prog + " -m " + mode == prefix + " " + prog + " " + "-m" + " " + mode
  {
  }

  lemma InputWords(m: Pipeline.Mode, wd: string)
    requires IsWord(wd)
    ensures Words(ProjectorInputs(m, wd)) == InputFiles(m, wd)
  {
    FilesAreWords(Pipeline.Base, wd);
    if m.Base? {
      WordsOfWord(SegmentsCsv(Pipeline.Base, wd));
    } else {
      FilesAreWords(Pipeline.Add, wd);
      Pipeline.ThreeWords(SegmentsCsv(Pipeline.Base, wd), XyDat(Pipeline.Base, wd), SegmentsCsv(Pipeline.Add, wd));
    }
  }

  /** The read-back command: `<prefix> cat <xy>`. */
  function FetchCommand(tk: Toolkit, m: Pipeline.Mode): (c: string)
    ensures IsWord(tk.workingDir) ==> Words(c) == Words(tk.Prefix()) + ["cat", XyDat(m, tk.workingDir)]
  {
    var c := tk.Prefix() + " cat " + XyDat(m, tk.workingDir);
    if IsWord(tk.workingDir) then
      FetchWords(tk.Prefix(), XyDat(m, tk.workingDir));
      FilesAreWords(m, tk.workingDir);
      c
    else c
  }

  lemma FetchWords(prefix: string, file: string)
    ensures IsWord(file) ==> Words(prefix + " cat " + file) == Words(prefix) + ["cat", file]
  {
    if IsWord(file) {
      assert prefix + " cat " + file == prefix + " " + "cat" + " " + file;
      FlagNamesAreWords();
      Snoc(prefix, "cat");
      Snoc(prefix + " " + "cat", file);
    }
  }

  // ---------------------------------------------------------------------------
  // The entry points

  /** What an entry point leaves in the caller's `params` and the commands it
      sends, in order: segments, projector, read-back. */
  datatype Session = Session(params: Options, commands: seq<string>)

  /** The checked parameters hold a string `rawdata`. */
  lemma CheckedHasRawdata(p: Options)
    requires CheckDataType(p).Ok?
    ensures var q := CheckDataType(p).value; Typed(q) && "rawdata" in q && q["rawdata"] == p["rawdata"] && q["rawdata"].Str?
  {
  }

  /** Both entry points: check the parameters, then build the three commands. */
  function Commands(tk: Toolkit, p: Options, m: Pipeline.Mode): (r: Result<Session>)
    ensures r.Err? <==> CheckDataType(p).Err?
    ensures r.Err? ==> r.error == CheckDataType(p).error
    ensures r.Ok? ==> r.value.params == CheckDataType(p).value && |r.value.commands| == 3
    ensures r.Ok? && IsWord(tk.workingDir) && OptionsAreWords(r.value.params) ==>
      Words(r.value.commands[0]) == Words(tk.Prefix()) + [Extractor(r.value.params)] + SegmentArgs(r.value.params)
        + Words(p["rawdata"].s) + [">", SegmentsCsv(m, tk.workingDir), "2>", SegmentsLog(m, tk.workingDir)]
    ensures r.Ok? && IsWord(tk.workingDir) ==>
      Words(r.value.commands[1]) == Words(tk.Prefix()) + [ToorpiaCmd, "-m", m.Name()] + InputFiles(m, tk.workingDir)
        + [">", XyDat(m, tk.workingDir), "2>", XyLog(m, tk.workingDir)]
    ensures r.Ok? && IsWord(tk.workingDir) ==>
      Words(r.value.commands[2]) == Words(tk.Prefix()) + ["cat", XyDat(m, tk.workingDir)]
  {
    var q :- CheckDataType(p);
    CheckedHasRawdata(p);
    Ok(Session(q, [SegmentCommand(tk, q, m), ProjectorCommand(tk, m), FetchCommand(tk, m)]))
  }

  /** `create_basemap(params)`: segments of the raw data into
      `<working dir>/base_segments.csv`, the projector in base mode reading
      them and writing `<working dir>/base-xy.dat`, and a read-back of that
      file. */
  function CreateBasemap(tk: Toolkit, p: Options): (r: Result<Session>)
    ensures r.Err? <==> CheckDataType(p).Err?
    ensures r.Err? ==> r.error == CheckDataType(p).error
    ensures r.Ok? ==> r.value.params == CheckDataType(p).value && |r.value.commands| == 3
    ensures r.Ok? && IsWord(tk.workingDir) && OptionsAreWords(r.value.params) ==>
      var wd := tk.workingDir;
      Words(r.value.commands[0]) == Words(tk.Prefix()) + [Extractor(r.value.params)] + SegmentArgs(r.value.params)
        + Words(p["rawdata"].s) + [">", SegmentsCsv(Pipeline.Base, wd), "2>", SegmentsLog(Pipeline.Base, wd)]
    ensures r.Ok? && IsWord(tk.workingDir) ==>
      var wd := tk.workingDir;
      Words(r.value.commands[1]) == Words(tk.Prefix()) + [ToorpiaCmd, "-m", "base", SegmentsCsv(Pipeline.Base, wd),
        ">", XyDat(Pipeline.Base, wd), "2>", XyLog(Pipeline.Base, wd)]
    ensures r.Ok? && IsWord(tk.workingDir) ==>
      Words(r.value.commands[2]) == Words(tk.Prefix()) + ["cat", XyDat(Pipeline.Base, tk.workingDir)]
  {
    ProjectorArgs(ToorpiaCmd, "-m", "base", SegmentsCsv(Pipeline.Base, tk.workingDir), ">",
      XyDat(Pipeline.Base, tk.workingDir), "2>", XyLog(Pipeline.Base, tk.workingDir));
    Commands(tk, p, Pipeline.Base)
  }

  lemma ProjectorArgs(a: string, b: string, c: string, d: string, e: string, f: string, g: string, h: string)
    ensures [a, b, c] + [d] + [e, f, g, h] == [a, b, c, d, e, f, g, h]
  {
  }

  lemma AddProjectorArgs(a: string, b: string, c: string, d: string, e: string, f: string, g: string, h: string,
                         i: string, j: string)
    ensures [a, b, c] + [d, e, f] + [g, h, i, j] == [a, b, c, d, e, f, g, h, i, j]
  {
  }

  /** `addplot(params)`: segments of the new data into
      `<working dir>/add_segments.csv`, the projector in add mode reading the
      base segments, the base coordinates and the new segments and writing
      `<working dir>/add-xy.dat`, and a read-back of that file. */
  function Addplot(tk: Toolkit, p: Options): (r: Result<Session>)
    ensures r.Err? <==> CheckDataType(p).Err?
    ensures r.Err? ==> r.error == CheckDataType(p).error
    ensures r.Ok? ==> r.value.params == CheckDataType(p).value && |r.value.commands| == 3
    ensures r.Ok? && IsWord(tk.workingDir) && OptionsAreWords(r.value.params) ==>
      var wd := tk.workingDir;
      Words(r.value.commands[0]) == Words(tk.Prefix()) + [Extractor(r.value.params)] + SegmentArgs(r.value.params)
        + Words(p["rawdata"].s) + [">", SegmentsCsv(Pipeline.Add, wd), "2>", SegmentsLog(Pipeline.Add, wd)]
    ensures r.Ok? && IsWord(tk.workingDir) ==>
      Words(r.value.commands[2]) == Words(tk.Prefix()) + ["cat", XyDat(Pipeline.Add, tk.workingDir)]
  {
    Commands(tk, p, Pipeline.Add)
  }

  /** The add-mode projector reads the base segments and base coordinates a
      base map left in the working directory, then the new segments, and writes
      the added coordinates. */
  lemma AddplotProjectorWords(tk: Toolkit, p: Options)
    requires Addplot(tk, p).Ok? && IsWord(tk.workingDir)
    ensures var wd := tk.workingDir;
      Words(Addplot(tk, p).value.commands[1]) == Words(tk.Prefix()) + [ToorpiaCmd, "-m", "add",
        SegmentsCsv(Pipeline.Base, wd), XyDat(Pipeline.Base, wd), SegmentsCsv(Pipeline.Add, wd),
        ">", XyDat(Pipeline.Add, wd), "2>", XyLog(Pipeline.Add, wd)]
  {
    var wd := tk.workingDir;
    AddProjectorArgs(ToorpiaCmd, "-m", "add", SegmentsCsv(Pipeline.Base, wd), XyDat(Pipeline.Base, wd),
      SegmentsCsv(Pipeline.Add, wd), ">", XyDat(Pipeline.Add, wd), "2>", XyLog(Pipeline.Add, wd));
  }
}

=== FILE: resolver.dfy ===
/** The local configuration resolver of toorpia/utils.py: raw-data checks, data
    type inference, working directory, table and sound requirements, and the
    defaulting of output file paths.  Each Python helper mutates `options` in
    place; here each returns the updated options (and filesystem) or the
    exception it raises. */
module Resolver {
  import opened Text
  import opened Paths
  import opened Config

  const Sound: Value := Str("sound")
  const Table: Value := Str("table")

  predicate IsKnownType(v: Value) {
    v == Sound || v == Table
  }

  /** The wav family of suffixes the local code accepts (case-sensitive). */
  predicate IsWavName(name: string) {
    || EndsWith(name, ".wav") || EndsWith(name, ".WAV")
    || EndsWith(name, ".wav.gz") || EndsWith(name, ".WAV.gz")
  }

  /** The csv family of suffixes the local code accepts (case-sensitive). */
  predicate IsCsvName(name: string) {
    || EndsWith(name, ".csv") || EndsWith(name, ".CSV")
    || EndsWith(name, ".csv.gz") || EndsWith(name, ".CSV.gz")
  }

  /** Any option that only makes sense for sound data. */
  predicate HasSoundHint(o: Options) {
    "data_index" in o || "sampling_rate" in o || "window_length" in o
  }

  /** `rawdata` is a string with at least one file name in it. */
  predicate HasFirstFile(o: Options) {
    "rawdata" in o && o["rawdata"].Str? && |Words(o["rawdata"].s)| > 0
  }

  /** The first whitespace-separated file name of `rawdata`. */
  function FirstFile(o: Options): string
    requires HasFirstFile(o)
  {
    Words(o["rawdata"].s)[0]
  }

  /** The whole `rawdata` string, as the sound helpers test it, has a csv suffix. */
  predicate WholeIsCsv(o: Options) {
    "rawdata" in o && o["rawdata"].Str? && IsCsvName(o["rawdata"].s)
  }

  /** The whole `rawdata` string has a wav suffix. */
  predicate WholeIsWav(o: Options) {
    "rawdata" in o && o["rawdata"].Str? && IsWavName(o["rawdata"].s)
  }

  /** `options[key]`, raising KeyError when absent. */
  function Lookup(o: Options, key: string): (r: Result<Value>)
    ensures r.Ok? <==> key in o
    ensures r.Ok? ==> r.value == o[key]
    ensures r.Err? ==> r.error == MissingKey(key)
  {
    if key in o then Ok(o[key]) else Err(MissingKey(key))
  }

  // ---------------------------------------------------------------------------
  // __check_rawdata_existence

  predicate AllReadable(fs: Fs, files: seq<string>) {
    forall i :: 0 <= i < |files| ==> fs.Readable(files[i])
  }

  /** What `os.path.exists` and `os.access(.., os.R_OK)` report for an unreadable file. */
  function FileError(fs: Fs, f: string): Error {
    if f in fs.present then PermissionDenied(f) else NotFound(f)
  }

  /** Every file must exist and be readable; the first that is not is named. */
  function CheckFiles(fs: Fs, files: seq<string>): (r: Result<()>)
    ensures r.Ok? <==> AllReadable(fs, files)
    ensures r.Err? ==>
      exists k :: 0 <= k < |files| && AllReadable(fs, files[..k]) && !fs.Readable(files[k])
        && r.error == FileError(fs, files[k])
    decreases |files|
  {
    if |files| == 0 then Ok(())
    else if !fs.Readable(files[0]) then
      assert AllReadable(fs, files[..0]);
      Err(FileError(fs, files[0]))
    else
      var r := CheckFiles(fs, files[1..]);
      assert r.Ok? <==> AllReadable(fs, files) by {
        if AllReadable(fs, files[1..]) {
          assert forall i :: 1 <= i < |files| ==> files[i] == files[1..][i - 1];
        }
      }
      assert r.Err? ==> (exists k :: (0 <= k < |files| && AllReadable(fs, files[..k]) && !fs.Readable(files[k])
        && r.error == FileError(fs, files[k])))
      by {
        if r.Err? {
          var k' :| 0 <= k' < |files| - 1 && AllReadable(fs, files[1..][..k']) && !fs.Readable(files[1..][k'])
            && r.error == FileError(fs, files[1..][k']);
          assert files[..k' + 1] == [files[0]] + files[1..][..k'];
          assert files[k' + 1] == files[1..][k'];
        }
      }
      r
  }

  function CheckRawdataExistence(o: Options, fs: Fs): (r: Result<()>)
    ensures "rawdata" !in o ==> r == Err(RawdataNotSpecified)
    ensures r.Ok? <==>
      "rawdata" in o && o["rawdata"].Str?
      && forall f :: f in Words(o["rawdata"].s) ==> fs.Readable(f)
  {
    if "rawdata" !in o then Err(RawdataNotSpecified)
    else
      var raw :- GetStr(o, "rawdata");
      var r := CheckFiles(fs, Words(raw));
      assert r.Ok? <==> forall f :: f in Words(raw) ==> fs.Readable(f) by {
        var ws := Words(raw);
        assert forall f :: f in ws ==> exists i :: 0 <= i < |ws| && ws[i] == f;
      }
      r
  }

  // ---------------------------------------------------------------------------
  // __check_rawdata_type

  /** Infers or validates `rawdata_type` from the FIRST file name of `rawdata`. */
  function CheckRawdataType(o: Options): (r: Result<Options>)
    ensures r.Ok? ==> "rawdata_type" in r.value && IsKnownType(r.value["rawdata_type"])
    ensures r.Ok? ==> r.value.Keys == o.Keys + {"rawdata_type"}
    ensures r.Ok? ==> forall k :: k in o && k != "rawdata_type" ==> r.value[k] == o[k]
  {
    var raw :- GetStr(o, "rawdata");
    var files := Words(raw);
    if |files| == 0 then Err(IndexOutOfRange("rawdata"))
    else if IsWavName(files[0]) then Ok(o["rawdata_type" := Sound])
    else if IsCsvName(files[0]) then
      if "rawdata_type" !in o then
        Ok(o["rawdata_type" := if HasSoundHint(o) then Sound else Table])
      else if o["rawdata_type"] != Table && o["rawdata_type"] != Sound then
        Err(InvalidRawdataType(o["rawdata_type"]))
      else
        Ok(o)
    else Err(UnrecognizedRawdata(files[0]))
  }

  /** A wav-family first file makes the data sound, whatever type was given. */
  lemma WavFirstFileIsSound(o: Options)
    requires HasFirstFile(o) && IsWavName(FirstFile(o))
    ensures CheckRawdataType(o) == Ok(o["rawdata_type" := Sound])
  {
  }

  /** A csv first file with no type given is never an error: sound exactly when a
      sound-only option is present, table otherwise. */
  lemma CsvTypeIsInferred(o: Options)
    requires HasFirstFile(o) && IsCsvName(FirstFile(o)) && !IsWavName(FirstFile(o))
    requires "rawdata_type" !in o
    ensures CheckRawdataType(o).Ok?
    ensures CheckRawdataType(o).value["rawdata_type"] == Sound <==> HasSoundHint(o)
    ensures CheckRawdataType(o).value["rawdata_type"] == Table <==> !HasSoundHint(o)
  {
  }

  /** A csv first file with a type given keeps the options unchanged when that
      type is table or sound, and is an error naming the value otherwise. */
  lemma CsvTypeIsValidated(o: Options)
    requires HasFirstFile(o) && IsCsvName(FirstFile(o)) && !IsWavName(FirstFile(o))
    requires "rawdata_type" in o
    ensures CheckRawdataType(o).Ok? <==> IsKnownType(o["rawdata_type"])
    ensures CheckRawdataType(o).Ok? ==> CheckRawdataType(o).value == o
    ensures CheckRawdataType(o).Err? ==> CheckRawdataType(o).error == InvalidRawdataType(o["rawdata_type"])
  {
  }

  /** Exactly the failures of the type check. */
  lemma RawdataTypeErrors(o: Options)
    ensures CheckRawdataType(o).Err? <==>
      || !HasFirstFile(o)
      || (!IsWavName(FirstFile(o)) && !IsCsvName(FirstFile(o)))
      || (!IsWavName(FirstFile(o)) && "rawdata_type" in o && !IsKnownType(o["rawdata_type"]))
    ensures HasFirstFile(o) && !IsWavName(FirstFile(o)) && !IsCsvName(FirstFile(o)) ==>
      CheckRawdataType(o) == Err(UnrecognizedRawdata(FirstFile(o)))
  {
  }

  /** Suffixes are matched case-sensitively in the four listed spellings only. */
  lemma MixedCaseIsNotRecognised()
    ensures !IsWavName("take.Wav") && !IsCsvName("take.Wav")
    ensures !IsCsvName("table.Csv") && !IsWavName("table.Csv")
  {
  }

  /** Running the type check on its own output changes nothing. */
  lemma CheckRawdataTypeIdempotent(o: Options)
    requires CheckRawdataType(o).Ok?
    ensures CheckRawdataType(CheckRawdataType(o).value) == CheckRawdataType(o)
  {
    var o' := CheckRawdataType(o).value;
    assert o'["rawdata"] == o["rawdata"];
    var first := Words(o["rawdata"].s)[0];
    if IsWavName(first) {
      assert o'["rawdata_type" := Sound] == o';
    } else {
      assert "rawdata_type" in o';
    }
  }

  /** No name is in both suffix families. */
  lemma WavAndCsvAreExclusive(name: string)
    ensures !(IsWavName(name) && IsCsvName(name))
  {
    var n := |name|;
    if n >= 4 {
      assert name[n - 1] == 'v' || name[n - 1] == 'V' ==> !EndsWith(name, ".wav.gz") && !EndsWith(name, ".csv.gz");
    }
  }

  // ---------------------------------------------------------------------------
  // __check_working_dir

  /** The working directory the check settles on. */
  function WorkingDir(o: Options): Value {
    if "working_dir" in o then o["working_dir"] else Str("analysis")
  }

  /** A missing working directory is created with `os.makedirs` as written, so
      an empty `working_dir` (for which `os.path.exists('')` is false) raises
      FileNotFoundError; then the directory must be writable. */
  function CheckWorkingDir(st: State): (r: Result<State>)
    ensures r.Ok? <==> (WorkingDir(st.opts).Str?
      && (WorkingDir(st.opts).s in st.fs.present || WorkingDir(st.opts).s != "")
      && WorkingDir(st.opts).s in st.fs.writePerm)
    ensures r.Ok? ==> "working_dir" in r.value.opts && r.value.opts["working_dir"] == WorkingDir(st.opts)
    ensures r.Ok? ==> r.value.opts.Keys == st.opts.Keys + {"working_dir"}
    ensures r.Ok? ==> forall k :: k in st.opts ==> r.value.opts[k] == st.opts[k]
    // a missing working directory is made, with its missing parents; an existing
    // one leaves the filesystem as it is
    ensures r.Ok? ==> MadeDirsFor(st.fs, r.value.fs, WorkingDir(st.opts).s)
    ensures r.Ok? && WorkingDir(st.opts).s in st.fs.present ==> r.value.fs == st.fs
    ensures r.Ok? ==> r.value.fs.Writable(r.value.opts["working_dir"].s)
    ensures WorkingDir(st.opts) == Str("") && "" !in st.fs.present ==> r == Err(NotFound(""))
    ensures r.Err? && WorkingDir(st.opts).Str? && (WorkingDir(st.opts).s in st.fs.present || WorkingDir(st.opts).s != "") ==>
      r.error == PermissionDenied(WorkingDir(st.opts).s)
  {
    var o := Default(st.opts, "working_dir", Str("analysis"));
    var wd :- GetStr(o, "working_dir");
    var fs :- if wd in st.fs.present then Ok(st.fs) else MakeDirsAsWritten(st.fs, wd);
    if !fs.Writable(wd) then Err(PermissionDenied(wd)) else Ok(State(o, fs))
  }

  // ---------------------------------------------------------------------------
  // __check_required_options_for_table

  function CheckRequiredForTable(st: State): (r: Result<State>)
    ensures r.Ok? ==> CheckWorkingDir(st) == r
    ensures r.Ok? ==> "type_weight" in r.value.opts && r.value.opts["type_weight"].Str?
    ensures r.Ok? ==> r.value.opts["type_weight"].s in r.value.fs.present
    ensures CheckWorkingDir(st).Ok? && "type_weight" !in st.opts ==> r == Err(TypeWeightNotCreated)
    ensures CheckWorkingDir(st).Ok? && "type_weight" in st.opts && st.opts["type_weight"].Str?
      && st.opts["type_weight"].s !in CheckWorkingDir(st).value.fs.present
      ==> r == Err(NotFound(st.opts["type_weight"].s))
  {
    var s :- CheckWorkingDir(st);
    if "type_weight" !in s.opts then Err(TypeWeightNotCreated)
    else
      var tw :- GetStr(s.opts, "type_weight");
      if tw !in s.fs.present then Err(NotFound(tw)) else Ok(s)
  }

  // ---------------------------------------------------------------------------
  // __check_required_options_for_sound

  /** The sound defaults, chosen by the suffix of the WHOLE `rawdata` string. */
  function SoundDefaults(o: Options, raw: string): (r: Options)
    ensures "window_length" in r
    ensures IsCsvName(raw) ==> "data_index" in r && "sampling_rate" in r
    ensures IsWavName(raw) ==> "data_index" !in r && "sampling_rate" in r
    ensures !IsCsvName(raw) && !IsWavName(raw) ==>
      ("sampling_rate" in r <==> "sampling_rate" in o) && ("data_index" in r <==> "data_index" in o)
    ensures forall k :: k in o && k != "data_index" ==> k in r && r[k] == o[k]
    ensures "data_index" in o && !IsWavName(raw) ==> r["data_index"] == o["data_index"]
    ensures "window_length" !in o ==> r["window_length"] == Int(65536)
    ensures "sampling_rate" !in o && (IsCsvName(raw) || IsWavName(raw)) ==> r["sampling_rate"] == Int(48000)
    ensures "data_index" !in o && IsCsvName(raw) ==> r["data_index"] == Int(1)
    ensures r.Keys <= o.Keys + {"data_index", "sampling_rate", "window_length"}
  {
    WavAndCsvAreExclusive(raw);
    var o1 :=
      if IsCsvName(raw) then Default(Default(o, "data_index", Int(1)), "sampling_rate", Int(48000))
      else if IsWavName(raw) then Default(o - {"data_index"}, "sampling_rate", Int(48000))
      else o;
    Default(o1, "window_length", Int(65536))
  }

  function CheckRequiredForSound(st: State): (r: Result<State>)
    ensures "rawdata_type" in st.opts && st.opts["rawdata_type"] == Table ==> r == Err(NothingToDoForTable)
    ensures r.Ok? ==> "window_length" in r.value.opts
    ensures r.Ok? && WholeIsCsv(st.opts) ==> "data_index" in r.value.opts && "sampling_rate" in r.value.opts
    ensures r.Ok? && WholeIsWav(st.opts) ==> "data_index" !in r.value.opts && "sampling_rate" in r.value.opts
    ensures r.Ok? && !WholeIsCsv(st.opts) && !WholeIsWav(st.opts) ==>
      ("sampling_rate" in r.value.opts <==> "sampling_rate" in st.opts)
      && ("data_index" in r.value.opts <==> "data_index" in st.opts)
    // defaults only fill gaps: a value already present is never overwritten
    ensures r.Ok? ==> forall k :: k in st.opts && k != "data_index" ==> k in r.value.opts && r.value.opts[k] == st.opts[k]
    ensures r.Ok? && "data_index" in st.opts && !WholeIsWav(st.opts) ==> r.value.opts["data_index"] == st.opts["data_index"]
    // and the filled-in values are the documented ones
    ensures r.Ok? && "window_length" !in st.opts ==> r.value.opts["window_length"] == Int(65536)
    ensures r.Ok? && "sampling_rate" !in st.opts && (WholeIsCsv(st.opts) || WholeIsWav(st.opts)) ==>
      r.value.opts["sampling_rate"] == Int(48000)
    ensures r.Ok? && "data_index" !in st.opts && WholeIsCsv(st.opts) ==> r.value.opts["data_index"] == Int(1)
    ensures r.Ok? ==> r.value.opts.Keys <= st.opts.Keys + {"data_index", "sampling_rate", "window_length", "working_dir"}
    ensures r.Ok? ==> HasStrWorkingDir(r.value.opts) && r.value.fs.Writable(r.value.opts["working_dir"].s)
  {
    var rt :- Lookup(st.opts, "rawdata_type");
    if rt == Table then Err(NothingToDoForTable)
    else
      var raw :- GetStr(st.opts, "rawdata");
      CheckWorkingDir(State(SoundDefaults(st.opts, raw), st.fs))
  }

  /** Resolving the sound requirements twice is the same as once. */
  lemma CheckRequiredForSoundIdempotent(st: State)
    requires CheckRequiredForSound(st).Ok?
    ensures CheckRequiredForSound(CheckRequiredForSound(st).value) == CheckRequiredForSound(st)
  {
    var raw := st.opts["rawdata"].s;
    var s1 := CheckRequiredForSound(st).value;
    var d := SoundDefaults(st.opts, raw);
    assert s1 == CheckWorkingDir(State(d, st.fs)).value;
    assert s1.opts["rawdata"] == Str(raw);
    assert s1.opts["rawdata_type"] == st.opts["rawdata_type"];
    var d2 := SoundDefaults(s1.opts, raw);
    assert d2 == s1.opts;
    var wd := s1.opts["working_dir"].s;
    assert s1.fs.Add(wd) == s1.fs;
  }

  // ---------------------------------------------------------------------------
  // output files: __set_output_file_for_basemap, __check_basemap_existence,
  // __set_output_file_for_addplot

  /** A usable working directory for building default paths. */
  predicate HasStrWorkingDir(o: Options) {
    "working_dir" in o && o["working_dir"].Str?
  }

  /** The error `options['working_dir'] + name` raises when it cannot be built. */
  function WorkingDirError(o: Options): Error {
    if "working_dir" in o then NotAString("working_dir") else MissingKey("working_dir")
  }

  /** `key` holds its given value, or else `working_dir + name`. */
  predicate DefaultedFrom(o: Options, r: Options, key: string, name: string) {
    && key in r
    && (key in o ==> r[key] == o[key])
    && (key !in o ==> HasStrWorkingDir(o) && r[key] == Str(o["working_dir"].s + name))
  }

  /** `if key not in options: options[key] = options['working_dir'] + name`. */
  function DefaultOutput(o: Options, key: string, name: string): (r: Result<Options>)
    requires key != "working_dir"
    ensures r.Ok? <==> key in o || HasStrWorkingDir(o)
    ensures r.Err? ==> r.error == WorkingDirError(o)
    ensures r.Ok? ==> r.value.Keys == o.Keys + {key}
    ensures r.Ok? ==> forall k :: k in o ==> r.value[k] == o[k]
    ensures r.Ok? ==> DefaultedFrom(o, r.value, key, name)
  {
    if key in o then Ok(o)
    else
      var wd :- GetStr(o, "working_dir");
      Ok(o[key := Str(wd + name)])
  }

  /** The three basemap output paths, defaulted under the working directory. */
  function BasemapDefaults(o: Options): (r: Result<Options>)
    ensures r.Ok? <==> HasStrWorkingDir(o) || ("base_segment" in o && "base_xy" in o && "status_mi" in o)
    ensures r.Err? ==> r.error == WorkingDirError(o)
    ensures r.Ok? ==> r.value.Keys == o.Keys + {"base_segment", "base_xy", "status_mi"}
    ensures r.Ok? ==> forall k :: k in o ==> r.value[k] == o[k]
    ensures r.Ok? ==> DefaultedFrom(o, r.value, "base_segment", "/segments.csv")
    ensures r.Ok? ==> DefaultedFrom(o, r.value, "base_xy", "/xy.dat")
    ensures r.Ok? ==> DefaultedFrom(o, r.value, "status_mi", "/status.mi")
  {
    var o1 :- DefaultOutput(o, "base_segment", "/segments.csv");
    var o2 :- DefaultOutput(o1, "base_xy", "/xy.dat");
    DefaultOutput(o2, "status_mi", "/status.mi")
  }

  /** The four addplot output paths, defaulted under the working directory. */
  function AddplotDefaults(o: Options): (r: Result<Options>)
    ensures r.Ok? <==> (HasStrWorkingDir(o)
      || ("add_segment" in o && "add_xy" in o && "add_status_mi" in o && "status_ms" in o))
    ensures r.Err? ==> r.error == WorkingDirError(o)
    ensures r.Ok? ==> r.value.Keys == o.Keys + {"add_segment", "add_xy", "add_status_mi", "status_ms"}
    ensures r.Ok? ==> forall k :: k in o ==> r.value[k] == o[k]
    ensures r.Ok? ==> DefaultedFrom(o, r.value, "add_segment", "/segments-add.csv")
    ensures r.Ok? ==> DefaultedFrom(o, r.value, "add_xy", "/xy-add.dat")
    ensures r.Ok? ==> DefaultedFrom(o, r.value, "add_status_mi", "/status-add.mi")
    ensures r.Ok? ==> DefaultedFrom(o, r.value, "status_ms", "/status.ms")
  {
    var o1 :- DefaultOutput(o, "add_segment", "/segments-add.csv");
    var o2 :- DefaultOutput(o1, "add_xy", "/xy-add.dat");
    var o3 :- DefaultOutput(o2, "add_status_mi", "/status-add.mi");
    DefaultOutput(o3, "status_ms", "/status.ms")
  }

  /** A defaulted output file lives directly in the working directory. */
  lemma DefaultOutputLivesInWorkingDir(o: Options, r: Options, key: string, name: string)
    requires DefaultedFrom(o, r, key, name) && key !in o
    requires |name| > 0 && name[0] == '/' && forall j :: 1 <= j < |name| ==> name[j] != '/'
    requires var wd := o["working_dir"].s; |wd| > 0 && wd[|wd| - 1] != '/'
    ensures r[key].Str? && Dirname(r[key].s) == o["working_dir"].s
  {
    var wd := o["working_dir"].s;
    assert wd + name == wd + "/" + name[1..];
    DirnameOfJoin(wd, name[1..]);
  }

  /** The directories `os.makedirs(d, exist_ok=True)` creates: `d` itself and,
      walking up through `os.path.split`, each parent that does not exist yet,
      up to the first one that does, the empty parent of a relative path or the
      root (the only path that is its own directory part). */
  function MadeDirs(present: set<string>, d: string): (r: set<string>)
    ensures d in r
    // only `d` and directories above it, none of which existed
    ensures forall p :: p in r ==> p <= d
    ensures forall p :: p in r && p != d ==> p != "" && p !in present
    // afterwards the parent of each created directory exists
    ensures forall p :: p in r ==> Dirname(p) == "" || Dirname(p) == p || Dirname(p) in present + r
    // and a parent is created only on the way to a created child
    ensures forall p :: p in r && p != d ==> exists q :: q in r && Dirname(q) == p
    decreases |d|
  {
    var h := Dirname(d);
    if h == "" || h == d || h in present then {d}
    else
      var up := MadeDirs(present, h);
      assert forall p :: p in up ==> p <= d by {
        forall p | p in up
          ensures p <= d
        {
          assert p <= h && h <= d;
        }
      }
      {d} + up
  }

  /** What one `os.makedirs(d, exist_ok=True)` leaves behind: the permissions
      are untouched, nothing disappears, and every new path is a non-empty
      directory on the way to `d` whose own parent now exists. */
  predicate MadeDirsFor(fs: Fs, r: Fs, d: string) {
    && fs.present <= r.present
    && r.readPerm == fs.readPerm && r.writePerm == fs.writePerm
    && (forall p :: p in r.present && p !in fs.present ==> p != "" && p <= d)
    && (forall p :: p in r.present && p !in fs.present ==>
          Dirname(p) == "" || Dirname(p) == p || Dirname(p) in r.present)
  }

  /** `os.makedirs(d, exist_ok=True)` as written: `os.makedirs('')` raises
      FileNotFoundError, which a bare output file name (no directory part) reaches. */
  function MakeDirsAsWritten(fs: Fs, d: string): (r: Result<Fs>)
    ensures r.Ok? <==> d != ""
    ensures r.Err? ==> r.error == NotFound("")
    ensures r.Ok? ==> d in r.value.present && MadeDirsFor(fs, r.value, d)
  {
    if d == "" then Err(NotFound("")) else Ok(fs.AddAll(MadeDirs(fs.present, d)))
  }

  /** Creating the directory of an output file, with the empty directory part
      read as the current directory, which always exists: this never fails. */
  function MakeDirs(fs: Fs, d: string): (r: Fs)
    ensures d == "" || d in r.present
    ensures MadeDirsFor(fs, r, d)
    ensures d == "" ==> r == fs
    ensures d != "" ==> MakeDirsAsWritten(fs, d) == Ok(r)
  {
    if d == "" then fs else fs.AddAll(MadeDirs(fs.present, d))
  }

  /** For the as-written code, a bare output file name always takes the
      "directory missing" branch and then fails. */
  lemma BareOutputNameFailsAsWritten(fs: Fs, file: string)
    requires fs.Valid()
    requires forall j :: 0 <= j < |file| ==> file[j] != '/'
    ensures Dirname(file) !in fs.present
    ensures MakeDirsAsWritten(fs, Dirname(file)) == Err(NotFound(""))
  {
    DirnameEmptyIffBare(file);
  }

  /** The directory of `file` exists, or is the current directory. */
  predicate DirReady(fs: Fs, file: string) {
    Dirname(file) == "" || Dirname(file) in fs.present
  }

  /** The paths `fs` does not have and `r` does. */
  function Created(fs: Fs, r: Fs): set<string> {
    r.present - fs.present
  }

  /** What the directory loops leave behind: nothing disappears, the
      permissions are untouched, each new path is a non-empty directory on the
      way to some output file's directory, and its own parent exists. */
  predicate DirsMadeForFiles(fs: Fs, r: Fs, files: seq<string>) {
    && fs.present <= r.present
    && r.readPerm == fs.readPerm && r.writePerm == fs.writePerm
    && (forall p :: p in Created(fs, r) ==> p != "" && exists i :: 0 <= i < |files| && p <= Dirname(files[i]))
    && (forall p :: p in Created(fs, r) ==> Dirname(p) == "" || Dirname(p) == p || Dirname(p) in r.present)
  }

  /** One more step of a directory loop keeps `DirsMadeForFiles`. */
  lemma DirsMadeForFilesStep(fs: Fs, fs1: Fs, r: Fs, files: seq<string>)
    requires |files| > 0
    requires fs1 == fs || MadeDirsFor(fs, fs1, Dirname(files[0]))
    requires DirsMadeForFiles(fs1, r, files[1..])
    ensures DirsMadeForFiles(fs, r, files)
  {
    forall p | p in Created(fs, r)
      ensures p != "" && exists i :: 0 <= i < |files| && p <= Dirname(files[i])
    {
      if p in Created(fs1, r) {
        var i :| 0 <= i < |files| - 1 && p <= Dirname(files[1..][i]);
        assert files[1..][i] == files[i + 1];
      } else {
        assert p <= Dirname(files[0]);
      }
    }
  }

  /** Basemap outputs: create the directory of each file when it is missing. */
  function PrepareParentDirs(fs: Fs, files: seq<string>): (r: Fs)
    ensures forall i :: 0 <= i < |files| ==> DirReady(r, files[i])
    ensures DirsMadeForFiles(fs, r, files)
    decreases |files|
  {
    if |files| == 0 then fs
    else
      var d := Dirname(files[0]);
      var fs1 := if d in fs.present then fs else MakeDirs(fs, d);
      var r := PrepareParentDirs(fs1, files[1..]);
      DirsMadeForFilesStep(fs, fs1, r, files);
      assert forall i :: 0 <= i < |files| ==> DirReady(r, files[i]) by {
        forall i | 0 < i < |files|
          ensures files[i] == files[1..][i - 1]
        {
        }
      }
      r
  }

  /** Addplot outputs: create the directory of each file that does not exist yet. */
  function PrepareNewFileDirs(fs: Fs, files: seq<string>): (r: Fs)
    ensures forall i :: 0 <= i < |files| ==> files[i] in r.present || DirReady(r, files[i])
    ensures DirsMadeForFiles(fs, r, files)
    decreases |files|
  {
    if |files| == 0 then fs
    else
      var fs1 := if files[0] in fs.present then fs else MakeDirs(fs, Dirname(files[0]));
      var r := PrepareNewFileDirs(fs1, files[1..]);
      DirsMadeForFilesStep(fs, fs1, r, files);
      assert forall i :: 0 <= i < |files| ==> files[i] in r.present || DirReady(r, files[i]) by {
        forall i | 0 < i < |files|
          ensures files[i] == files[1..][i - 1]
        {
        }
      }
      r
  }

  /** The basemap directory loop as written: a missing directory part is made
      with `os.makedirs` as written.  It fails exactly when some output file is
      a bare name, whose directory part `''` never exists, and otherwise agrees
      with the corrected loop. */
  function PrepareParentDirsAsWritten(fs: Fs, files: seq<string>): (r: Result<Fs>)
    ensures r.Ok? <==> ("" in fs.present || forall i :: 0 <= i < |files| ==> Dirname(files[i]) != "")
    ensures r.Ok? ==> r.value == PrepareParentDirs(fs, files)
    ensures r.Err? ==> r.error == NotFound("")
    decreases |files|
  {
    if |files| == 0 then Ok(fs)
    else
      var d := Dirname(files[0]);
      var fs1 :- if d in fs.present then Ok(fs) else MakeDirsAsWritten(fs, d);
      assert "" in fs1.present <==> "" in fs.present;
      var r := PrepareParentDirsAsWritten(fs1, files[1..]);
      assert (forall i :: 0 <= i < |files| ==> Dirname(files[i]) != "")
        <==> d != "" && forall i :: 0 <= i < |files| - 1 ==> Dirname(files[1..][i]) != "" by {
        forall i | 0 < i < |files|
          ensures files[i] == files[1..][i - 1]
        {
        }
      }
      r
  }

  /** The addplot directory loop as written.  It fails only on a missing bare
      file name, it does fail on the first one that no earlier file's directory
      (or a parent made on the way to it) can be, and otherwise it agrees with
      the corrected loop. */
  function PrepareNewFileDirsAsWritten(fs: Fs, files: seq<string>): (r: Result<Fs>)
    ensures r.Ok? ==> r.value == PrepareNewFileDirs(fs, files)
    ensures r.Err? ==> r.error == NotFound("")
    ensures r.Err? ==> exists i :: 0 <= i < |files| && files[i] !in fs.present && Dirname(files[i]) == ""
    ensures (exists i :: (0 <= i < |files| && files[i] !in fs.present && Dirname(files[i]) == ""
      && forall j :: 0 <= j < i ==> !(files[i] <= Dirname(files[j])))) ==> r.Err?
    decreases |files|
  {
    if |files| == 0 then Ok(fs)
    else
      var fs1 :- if files[0] in fs.present then Ok(fs) else MakeDirsAsWritten(fs, Dirname(files[0]));
      var r := PrepareNewFileDirsAsWritten(fs1, files[1..]);
      assert r.Err? ==> exists i :: 0 <= i < |files| && files[i] !in fs.present && Dirname(files[i]) == "" by {
        if r.Err? {
          var i :| 0 <= i < |files| - 1 && files[1..][i] !in fs1.present && Dirname(files[1..][i]) == "";
          assert files[i + 1] == files[1..][i];
        }
      }
      assert (exists i :: (0 <= i < |files| && files[i] !in fs.present && Dirname(files[i]) == ""
        && forall j :: 0 <= j < i ==> !(files[i] <= Dirname(files[j])))) ==> r.Err? by {
        if exists i :: 0 <= i < |files| && files[i] !in fs.present && Dirname(files[i]) == ""
          && forall j :: 0 <= j < i ==> !(files[i] <= Dirname(files[j])) {
          var i :| 0 <= i < |files| && files[i] !in fs.present && Dirname(files[i]) == ""
            && forall j :: 0 <= j < i ==> !(files[i] <= Dirname(files[j]));
          assert i > 0;
          assert files[i] !in fs1.present by {
            assert !(files[i] <= Dirname(files[0]));
          }
          assert files[1..][i - 1] == files[i];
          forall j | 0 <= j < i - 1
            ensures !(files[1..][i - 1] <= Dirname(files[1..][j]))
          {
            assert files[1..][j] == files[j + 1];
          }
        }
      }
      r
  }

  /** `key` is set to a string. */
  predicate IsStrOption(o: Options, key: string) {
    key in o && o[key].Str?
  }

  /** `options[key]` may be given, but then must be a path string. */
  predicate StrIfGiven(o: Options, key: string) {
    key !in o || o[key].Str?
  }

  function SetOutputFileForBasemap(st: State): (r: Result<State>)
    ensures r.Ok? ==> BasemapDefaults(st.opts) == Ok(r.value.opts)
    ensures r.Ok? ==> (IsStrOption(r.value.opts, "base_segment") && IsStrOption(r.value.opts, "base_xy")
      && IsStrOption(r.value.opts, "status_mi"))
    ensures r.Ok? ==> (DirReady(r.value.fs, r.value.opts["base_segment"].s)
      && DirReady(r.value.fs, r.value.opts["base_xy"].s)
      && DirReady(r.value.fs, r.value.opts["status_mi"].s))
    ensures r.Ok? ==> DirsMadeForFiles(st.fs, r.value.fs,
      [r.value.opts["base_segment"].s, r.value.opts["base_xy"].s, r.value.opts["status_mi"].s])
    ensures r.Ok? <==> (BasemapDefaults(st.opts).Ok?
      && StrIfGiven(st.opts, "base_segment") && StrIfGiven(st.opts, "base_xy") && StrIfGiven(st.opts, "status_mi"))
  {
    var o :- BasemapDefaults(st.opts);
    var seg :- GetStr(o, "base_segment");
    var xy :- GetStr(o, "base_xy");
    var mi :- GetStr(o, "status_mi");
    var files := [seg, xy, mi];
    var fs := PrepareParentDirs(st.fs, files);
    assert files[0] == seg && files[1] == xy && files[2] == mi;
    Ok(State(o, fs))
  }

  function CheckBasemapExistence(st: State): (r: Result<State>)
    ensures "working_dir" !in st.opts ==> r == Err(WorkingDirNotSpecified)
    ensures r.Ok? ==> r.value.fs == st.fs
    ensures r.Ok? ==> BasemapDefaults(st.opts) == Ok(r.value.opts)
    ensures r.Ok? ==> HasStrWorkingDir(st.opts) && st.fs.Readable(st.opts["working_dir"].s)
    ensures r.Ok? ==> IsStrOption(r.value.opts, "base_segment") && IsStrOption(r.value.opts, "base_xy")
    ensures r.Ok? ==> st.fs.Readable(r.value.opts["base_segment"].s) && st.fs.Readable(r.value.opts["base_xy"].s)
  {
    if "working_dir" !in st.opts then Err(WorkingDirNotSpecified)
    else
      var wd :- GetStr(st.opts, "working_dir");
      if !st.fs.Readable(wd) then Err(PermissionDenied(wd))
      else
        var o :- BasemapDefaults(st.opts);
        var seg :- GetStr(o, "base_segment");
        var xy :- GetStr(o, "base_xy");
        if seg !in st.fs.present then Err(NotFound(seg))
        else if seg !in st.fs.readPerm then Err(PermissionDenied(seg))
        else if xy !in st.fs.present then Err(NotFound(xy))
        else if xy !in st.fs.readPerm then Err(PermissionDenied(xy))
        else Ok(State(o, st.fs))
  }

  /** A missing base segment or coordinate file is reported as not found. */
  lemma MissingBasemapIsNotFound(st: State)
    requires HasStrWorkingDir(st.opts) && st.fs.Readable(st.opts["working_dir"].s)
    requires IsStrOption(st.opts, "base_segment") && IsStrOption(st.opts, "base_xy")
    requires st.opts["base_segment"].s !in st.fs.present || st.opts["base_xy"].s !in st.fs.present
    ensures CheckBasemapExistence(st).Err?
    ensures st.opts["base_segment"].s !in st.fs.present ==>
      CheckBasemapExistence(st) == Err(NotFound(st.opts["base_segment"].s))
    ensures st.fs.Readable(st.opts["base_segment"].s) ==>
      CheckBasemapExistence(st) == Err(NotFound(st.opts["base_xy"].s))
  {
  }

  function SetOutputFileForAddplot(st: State): (r: Result<State>)
    ensures r.Ok? ==> AddplotDefaults(st.opts) == Ok(r.value.opts)
    ensures r.Ok? ==> (IsStrOption(r.value.opts, "add_segment") && IsStrOption(r.value.opts, "add_xy")
      && IsStrOption(r.value.opts, "add_status_mi"))
    ensures r.Ok? ==>
      && (r.value.opts["add_segment"].s in r.value.fs.present || DirReady(r.value.fs, r.value.opts["add_segment"].s))
      && (r.value.opts["add_xy"].s in r.value.fs.present || DirReady(r.value.fs, r.value.opts["add_xy"].s))
      && (r.value.opts["add_status_mi"].s in r.value.fs.present || DirReady(r.value.fs, r.value.opts["add_status_mi"].s))
    ensures r.Ok? ==> DirsMadeForFiles(st.fs, r.value.fs,
      [r.value.opts["add_segment"].s, r.value.opts["add_xy"].s, r.value.opts["add_status_mi"].s])
    ensures r.Ok? <==> (AddplotDefaults(st.opts).Ok?
      && StrIfGiven(st.opts, "add_segment") && StrIfGiven(st.opts, "add_xy") && StrIfGiven(st.opts, "add_status_mi"))
  {
    var o :- AddplotDefaults(st.opts);
    var seg :- GetStr(o, "add_segment");
    var xy :- GetStr(o, "add_xy");
    var mi :- GetStr(o, "add_status_mi");
    var files := [seg, xy, mi];
    var fs := PrepareNewFileDirs(st.fs, files);
    assert files[0] == seg && files[1] == xy && files[2] == mi;
    Ok(State(o, fs))
  }

  /** The output file under `key` has no directory part. */
  predicate IsBareOutput(o: Options, key: string) {
    IsStrOption(o, key) && Dirname(o[key].s) == ""
  }

  /** The output file under `key` is a bare name that does not exist yet. */
  predicate IsNewBareOutput(fs: Fs, o: Options, key: string) {
    IsBareOutput(o, key) && o[key].s !in fs.present
  }

  /** `__set_output_file_for_basemap` as written: on top of the corrected
      step's failures, it raises FileNotFoundError exactly when one of the three
      outputs is a bare file name, and otherwise it agrees with the corrected
      step. */
  function SetOutputFileForBasemapAsWritten(st: State): (r: Result<State>)
    ensures SetOutputFileForBasemap(st).Err? ==> r == SetOutputFileForBasemap(st)
    ensures r.Ok? ==> r == SetOutputFileForBasemap(st)
    ensures SetOutputFileForBasemap(st).Ok? ==> (
      var o := SetOutputFileForBasemap(st).value.opts;
      r.Err? <==> ("" !in st.fs.present
        && (IsBareOutput(o, "base_segment") || IsBareOutput(o, "base_xy") || IsBareOutput(o, "status_mi"))))
    ensures SetOutputFileForBasemap(st).Ok? && r.Err? ==> r.error == NotFound("")
  {
    var o :- BasemapDefaults(st.opts);
    var seg :- GetStr(o, "base_segment");
    var xy :- GetStr(o, "base_xy");
    var mi :- GetStr(o, "status_mi");
    var files := [seg, xy, mi];
    assert files[0] == seg && files[1] == xy && files[2] == mi;
    var fs :- PrepareParentDirsAsWritten(st.fs, files);
    Ok(State(o, fs))
  }

  /** `__set_output_file_for_addplot` as written: on top of the corrected
      step's failures, it raises FileNotFoundError only when an output is a new
      bare file name, and always when `add_segment` is one; otherwise it agrees
      with the corrected step. */
  function SetOutputFileForAddplotAsWritten(st: State): (r: Result<State>)
    ensures SetOutputFileForAddplot(st).Err? ==> r == SetOutputFileForAddplot(st)
    ensures r.Ok? ==> r == SetOutputFileForAddplot(st)
    ensures SetOutputFileForAddplot(st).Ok? && r.Err? ==> (
      var o := SetOutputFileForAddplot(st).value.opts;
      && r.error == NotFound("")
      && (IsNewBareOutput(st.fs, o, "add_segment") || IsNewBareOutput(st.fs, o, "add_xy")
         || IsNewBareOutput(st.fs, o, "add_status_mi")))
    ensures (SetOutputFileForAddplot(st).Ok?
      && IsNewBareOutput(st.fs, SetOutputFileForAddplot(st).value.opts, "add_segment")) ==> r.Err?
  {
    var o :- AddplotDefaults(st.opts);
    var seg :- GetStr(o, "add_segment");
    var xy :- GetStr(o, "add_xy");
    var mi :- GetStr(o, "add_status_mi");
    var files := [seg, xy, mi];
    assert files[0] == seg && files[1] == xy && files[2] == mi;
    var fs :- PrepareNewFileDirsAsWritten(st.fs, files);
    Ok(State(o, fs))
  }
}

=== FILE: text.dfy ===
/** Text primitives the option code leans on: Python's whitespace `str.split()`,
    `str.endswith`, and `str()` of an integer.  The contracts about built
    command strings are stated through `Words`, the Python whitespace split of
    the string: it separates on every `str.isspace()` character (a shell
    separates on fewer), and it keeps shell operators such as `;`, `>` and `2>`
    as ordinary tokens. */
module Text {

  /** Python's `str.isspace()` for one character: the separators `str.split()`
      with no argument cuts on. */
  predicate IsSpace(c: char) {
    || c == ' '
    || ('\t' <= c <= '\r')
    || ('\U{1C}' <= c <= '\U{1F}')
    || c == '\U{85}' || c == '\U{A0}' || c == '\U{1680}'
    || ('\U{2000}' <= c <= '\U{200A}')
    || c == '\U{2028}' || c == '\U{2029}' || c == '\U{202F}'
    || c == '\U{205F}' || c == '\U{3000}'
  }

  /** One token: non-empty and free of whitespace. */
  predicate IsWord(w: string) {
    |w| > 0 && forall i :: 0 <= i < |w| ==> !IsSpace(w[i])
  }

  /** Python's `s.endswith(suffix)`. */
  predicate EndsWith(s: string, suffix: string) {
    |suffix| <= |s| && s[|s| - |suffix|..] == suffix
  }

  /** Length of the leading run of non-space characters. */
  function WordLen(s: string): (n: nat)
    ensures n <= |s|
    ensures forall i :: 0 <= i < n ==> !IsSpace(s[i])
    ensures n < |s| ==> IsSpace(s[n])
    decreases |s|
  {
    if |s| == 0 || IsSpace(s[0]) then 0 else 1 + WordLen(s[1..])
  }

  /** Python's `s.split()`: the maximal whitespace-free runs, in order. */
  function Words(s: string): (ws: seq<string>)
    ensures forall i :: 0 <= i < |ws| ==> IsWord(ws[i])
    decreases |s|
  {
    if |s| == 0 then []
    else if IsSpace(s[0]) then Words(s[1..])
    else
      var n := WordLen(s);
      [s[..n]] + Words(s[n..])
  }

  /** Joins tokens with single spaces (`' '.join(ws)`). */
  function Unwords(ws: seq<string>): string
    decreases |ws|
  {
    if |ws| == 0 then ""
    else if |ws| == 1 then ws[0]
    else ws[0] + " " + Unwords(ws[1..])
  }

  /** The characters of `s` that are not whitespace, in order. */
  function NonSpace(s: string): string
    decreases |s|
  {
    if |s| == 0 then ""
    else (if IsSpace(s[0]) then "" else [s[0]]) + NonSpace(s[1..])
  }

  function Concat(ws: seq<string>): string
    decreases |ws|
  {
    if |ws| == 0 then "" else ws[0] + Concat(ws[1..])
  }

  lemma WordLenStopsAtSpace(a: string, c: char, b: string)
    requires IsSpace(c)
    ensures WordLen(a + [c] + b) == WordLen(a)
  {
    var s := a + [c] + b;
    var n := WordLen(a);
    assert forall i :: 0 <= i < n ==> s[i] == a[i];
    if n < |a| {
      assert s[n] == a[n];
    } else {
      assert s[n] == c;
    }
  }

  /** A single token splits to itself. */
  lemma WordsOfWord(w: string)
    requires IsWord(w)
    ensures Words(w) == [w]
  {
    assert w[..WordLen(w)] == w;
  }

  /** Splitting distributes over a one-space join: the space is a separator and
      never glues the neighbouring tokens together. */
  lemma {:induction false} WordsOfJoin(a: string, b: string)
    ensures Words(a + " " + b) == Words(a) + Words(b)
    decreases |a|
  {
    var s := a + " " + b;
    if |a| == 0 {
      assert s[0] == ' ';
      assert s[1..] == b;
    } else if IsSpace(a[0]) {
      assert s[0] == a[0];
      assert s[1..] == a[1..] + " " + b;
      WordsOfJoin(a[1..], b);
    } else {
      assert s[0] == a[0];
      var n := WordLen(a);
      assert s == a + [' '] + b;
      WordLenStopsAtSpace(a, ' ', b);
      assert s[..n] == a[..n];
      assert s[n..] == a[n..] + " " + b;
      WordsOfJoin(a[n..], b);
    }
  }

  /** Leading whitespace is dropped. */
  lemma WordsSkipsSpace(s: string)
    ensures Words(" " + s) == Words(s)
  {
    assert (" " + s)[1..] == s;
  }

  /** Round trip: splitting a space-joined list of tokens gives the tokens back. */
  lemma {:induction false} WordsOfUnwords(ws: seq<string>)
    requires forall i :: 0 <= i < |ws| ==> IsWord(ws[i])
    ensures Words(Unwords(ws)) == ws
    decreases |ws|
  {
    if |ws| == 0 {
    } else if |ws| == 1 {
      WordsOfWord(ws[0]);
    } else {
      WordsOfJoin(ws[0], Unwords(ws[1..]));
      WordsOfWord(ws[0]);
      WordsOfUnwords(ws[1..]);
    }
  }

  lemma {:induction false} NonSpaceOfJoin(a: string, b: string)
    ensures NonSpace(a + b) == NonSpace(a) + NonSpace(b)
    decreases |a|
  {
    if |a| == 0 {
      assert a + b == b;
    } else {
      assert (a + b)[0] == a[0];
      assert (a + b)[1..] == a[1..] + b;
      NonSpaceOfJoin(a[1..], b);
    }
  }

  lemma {:induction false} NonSpaceOfSpaceFree(s: string)
    requires forall i :: 0 <= i < |s| ==> !IsSpace(s[i])
    ensures NonSpace(s) == s
    decreases |s|
  {
    if |s| > 0 {
      NonSpaceOfSpaceFree(s[1..]);
    }
  }

  /** Splitting loses nothing but whitespace: the tokens, glued back without
      separators, are exactly the non-space characters of the input. */
  lemma {:induction false} WordsKeepAllNonSpace(s: string)
    ensures Concat(Words(s)) == NonSpace(s)
    decreases |s|
  {
    if |s| == 0 {
    } else if IsSpace(s[0]) {
      WordsKeepAllNonSpace(s[1..]);
    } else {
      var n := WordLen(s);
      assert s == s[..n] + s[n..];
      NonSpaceOfJoin(s[..n], s[n..]);
      NonSpaceOfSpaceFree(s[..n]);
      WordsKeepAllNonSpace(s[n..]);
      assert Words(s) == [s[..n]] + Words(s[n..]);
      assert Concat(Words(s)) == s[..n] + Concat(Words(s[n..]));
    }
  }

  // ---------------------------------------------------------------------------
  // Decimal rendering, as Python's str(int)

  function DigitChar(d: nat): (c: char)
    requires d < 10
    ensures '0' <= c <= '9'
  {
    ('0' as int + d) as char
  }

  predicate IsDigit(c: char) {
    '0' <= c <= '9'
  }

  predicate AllDigits(s: string) {
    forall i :: 0 <= i < |s| ==> IsDigit(s[i])
  }

  /** Decimal digits of `n`, most significant first, no leading zero. */
  function NatToDecimal(n: nat): (s: string)
    ensures |s| > 0 && AllDigits(s)
    ensures s[0] == '0' <==> n == 0
    decreases n
  {
    if n < 10 then [DigitChar(n)] else NatToDecimal(n / 10) + [DigitChar(n % 10)]
  }

  /** The number a digit string denotes. */
  function DecimalValue(s: string): nat
    requires AllDigits(s)
    decreases |s|
  {
    if |s| == 0 then 0
    else DecimalValue(s[..|s| - 1]) * 10 + (s[|s| - 1] as int - '0' as int)
  }

  lemma {:induction false} DecimalRoundTrip(n: nat)
    ensures DecimalValue(NatToDecimal(n)) == n
    decreases n
  {
    if n >= 10 {
      var s := NatToDecimal(n);
      assert s[..|s| - 1] == NatToDecimal(n / 10);
      DecimalRoundTrip(n / 10);
    }
  }

  /** Python's `str(i)` for an int: an optional minus sign, then the digits. */
  function IntToDecimal(i: int): (s: string)
    ensures IsWord(s)
    ensures i >= 0 <==> AllDigits(s)
    ensures i < 0 <==> s[0] == '-'
  {
    if i < 0 then
      var s := "-" + NatToDecimal(-i);
      assert s[0] == '-' && !IsDigit(s[0]);
      s
    else NatToDecimal(i)
  }
}

=== FILE: viewers.dfy ===
/** The viewer switches of toorpia/utils.py: after a map is built, the options
    decide whether the map inspector and the monitoring scope are started, and
    whether sharably; the code also writes the decision back into the options. */
module Viewers {
  import opened Config

  /** Whether a viewer is started, and with `sharable=True`. */
  datatype Launch = Skipped | Launched(sharable: bool)

  /** The options after a viewer decision, and the decision. */
  datatype Toggle = Toggle(opts: Options, launch: Launch)

  /** The options hold exactly `v` under `key`. */
  predicate Records(o: Options, key: string, v: Value) {
    key in o && o[key] == v
  }

  /** `key in options and options[key] == b`, with Python's `==`. */
  predicate SetTo(o: Options, key: string, b: bool) {
    key in o && PyEquals(o[key], b)
  }

  /** The map-inspector switch: skipped only when explicitly set equal to
      False; otherwise it is recorded as True and started, sharably only when
      `map_inspector_sharable` equals True, which is otherwise recorded as
      False. */
  function MapInspector(o: Options): (t: Toggle)
    ensures t.launch.Skipped? <==> SetTo(o, "map_inspector", false)
    ensures t.launch.Skipped? ==> t.opts == o
    ensures t.launch.Launched? ==> (t.launch.sharable <==> SetTo(o, "map_inspector_sharable", true))
    ensures t.launch.Launched? ==> Records(t.opts, "map_inspector", Bool(true))
    ensures t.launch.Launched? && !t.launch.sharable ==> Records(t.opts, "map_inspector_sharable", Bool(false))
    ensures t.launch.Launched? && t.launch.sharable ==> Records(t.opts, "map_inspector_sharable", o["map_inspector_sharable"])
    // nothing but the two switches is touched
    ensures t.opts.Keys <= o.Keys + {"map_inspector", "map_inspector_sharable"}
    ensures forall k :: k in o && k != "map_inspector" && k != "map_inspector_sharable" ==> k in t.opts && t.opts[k] == o[k]
  {
    if SetTo(o, "map_inspector", false) then Toggle(o, Skipped)
    else
      var on := o["map_inspector" := Bool(true)];
      if SetTo(on, "map_inspector_sharable", true) then Toggle(on, Launched(true))
      else Toggle(on["map_inspector_sharable" := Bool(false)], Launched(false))
  }

  /** The monitoring-scope switch, which defaults the other way: started only
      when explicitly set equal to True, sharably only when
      `monitoring_scope_sharable` equals True; when not started both switches
      are recorded as False. */
  function MonitoringScope(o: Options): (t: Toggle)
    ensures t.launch.Launched? <==> SetTo(o, "monitoring_scope", true)
    ensures t.launch.Launched? ==> (t.launch.sharable <==> SetTo(o, "monitoring_scope_sharable", true))
    ensures t.launch.Launched? ==> Records(t.opts, "monitoring_scope", o["monitoring_scope"])
    ensures t.launch.Launched? && t.launch.sharable ==> t.opts == o
    ensures t.launch.Launched? && !t.launch.sharable ==> Records(t.opts, "monitoring_scope_sharable", Bool(false))
    ensures t.launch.Skipped? ==>
      Records(t.opts, "monitoring_scope", Bool(false)) && Records(t.opts, "monitoring_scope_sharable", Bool(false))
    ensures t.opts.Keys <= o.Keys + {"monitoring_scope", "monitoring_scope_sharable"}
    ensures forall k :: k in o && k != "monitoring_scope" && k != "monitoring_scope_sharable" ==> k in t.opts && t.opts[k] == o[k]
  {
    if SetTo(o, "monitoring_scope", true) then
      if SetTo(o, "monitoring_scope_sharable", true) then Toggle(o, Launched(true))
      else Toggle(o["monitoring_scope_sharable" := Bool(false)], Launched(false))
    else Toggle(o["monitoring_scope" := Bool(false)]["monitoring_scope_sharable" := Bool(false)], Skipped)
  }

  /** `a` and `b` agree on `key`: both lack it or both hold the same value. */
  predicate SameAt(a: Options, b: Options, key: string) {
    (key in a <==> key in b) && (key in a ==> a[key] == b[key])
  }

  /** The map-inspector decision reads nothing but its two switches. */
  lemma MapInspectorReadsSwitches(a: Options, b: Options)
    requires SameAt(a, b, "map_inspector") && SameAt(a, b, "map_inspector_sharable")
    ensures MapInspector(a).launch == MapInspector(b).launch
  {
  }

  /** The monitoring-scope decision reads nothing but its two switches. */
  lemma MonitoringScopeReadsSwitches(a: Options, b: Options)
    requires SameAt(a, b, "monitoring_scope") && SameAt(a, b, "monitoring_scope_sharable")
    ensures MonitoringScope(a).launch == MonitoringScope(b).launch
  {
  }

  /** Running the map-inspector switch on its own output changes nothing and
      decides the same way: the recorded switches reproduce the decision. */
  lemma MapInspectorIdempotent(o: Options)
    ensures MapInspector(MapInspector(o).opts) == MapInspector(o)
  {
  }

  /** The same for the monitoring scope. */
  lemma MonitoringScopeIdempotent(o: Options)
    ensures MonitoringScope(MonitoringScope(o).opts) == MonitoringScope(o)
  {
  }

  /** An integer switch counts as a boolean: `map_inspector = 0` suppresses the
      inspector and `map_inspector_sharable = 1` makes it sharable, while the
      string "False" does not suppress it. */
  lemma IntegerSwitches(o: Options)
    ensures MapInspector(o["map_inspector" := Int(0)]).launch == Skipped
    ensures MapInspector(o["map_inspector" := Str("False")]["map_inspector_sharable" := Int(1)]).launch == Launched(true)
    ensures MonitoringScope(o["monitoring_scope" := Int(1)]["monitoring_scope_sharable" := Int(0)]).launch == Launched(false)
  {
  }
}
